=== FILE: README.md ===
# Pulsar engagement and validation model

Pulsar is a small social app. Its Express backend stores posts, comments, replies and users in MongoDB, and its React frontend renders the feed.
This project models in Dafny the rules that decide what an engagement request or a form submission does:

- the post and user documents: their defaults, normalisation setters, length limits, and the serialiser that drops the password;
- the handlers that load a document, change it and save it:
  - post create, edit, delete and like;
  - comment append, reply append, and comment like/dislike;
  - follow/unfollow and the profile update and read;
  - the feed page and its pagination;
- register, login and the current-user route;
- the error translator that turns a thrown error into a status and a message;
- the client-side schemas, the sign-in form's username filter and submit gate;
- the post card's comment ordering, reply insertion, link normalisation, time labels, truncation and counters;
- the comment row's like/dislike state machine, reply-depth cap and initials;
- the feed cache's optimistic create, confirm, rollback, delete and edit.

Each handler is a pure function from the collection and the request fields to a `Result`. A `Result` is either the new collection with the response body, or a status with the JSON `error` message.
Posts are kept in a map keyed by id. Users are kept in a sequence, in the collection's natural order, because the login lookup returns the first match.
Saving a post means running the schema validators and then the pre-save hook, which stamps `updatedAt`. A failed validation goes through the error translator, as it does in the app.

Modules follow the source files:

- `Base`, `Text` and `Seqs`: shared values, JavaScript string helpers (`trim`, `\s`, `toLowerCase`, `startsWith`) and array helpers (`filter`, `indexOf`, `splice`).
- `ErrorHandler`: `backend/src/middleware/errorHandler.js`.
- `PostModel` and `UserModel`: `backend/src/models/Post.js` and `backend/src/models/User.js`.
- `PostRoutes`, `UserRoutes` and `AuthRoutes`: `backend/src/routes/posts.js`, `backend/src/routes/users.js` and `backend/src/routes/auth.js`.
- `Validations`: `frontend/src/lib/validations.ts`.
- `AuthForm`: `frontend/src/pages/Auth.tsx`.
- `PostCard`: `frontend/src/components/post/PostCard.tsx`.
- `CommentItem`: `frontend/src/components/post/CommentItem.tsx`.
- `FeedCache`: `frontend/src/pages/Index.tsx`.
- `ReplyDepth`: states where the client and the server disagree about replies.
- `LikeSync`: states how the card's like button tracks the server's answer.

Foreign calls become parameters:

- bcrypt's hash and compare;
- the email-format check of the client schema;
- the clock (`now`, or the elapsed milliseconds).

A signed token is represented by the user id it carries, and a verified token by the id decoded from it.

Three behaviours of the code are worth knowing:

- **Replies to replies.** The reply button is offered at depths 1 and 2 (`frontend/src/components/post/CommentItem.tsx:131-132`), but the handler looks the parent id up among top-level comments only and answers 404 "comment not found" (`backend/src/routes/posts.js:304-308`). `ReplyDepth.ReplyToReplyRejected` states this. `ReplyDepth.ClientInsertsUnderReply` shows that the card's own insertion reaches replies.
- **Reactions on replies.** The comment like and dislike endpoints also find only top-level comments, so a reply's stored like and dislike lists can never change (`ReplyDepth.ReactToReplyRejected`).
  Reply rows are rendered without a post id (`frontend/src/components/post/CommentItem.tsx:283-293`), so their reactions use only the local fallback. `CommentItem.LocalRunCountsAgree` is about that fallback.
- **Untrimmed signup fields.** The sign-in page validates the raw signup fields but sends them trimmed (`frontend/src/pages/Auth.tsx:101-133`). A display name of a space and one letter passes the client's two-character minimum, yet reaches the server as one character (`AuthForm.SignupChecksUntrimmedName`).

## Model

| member | source | states |
|---|---|---|
| ErrorHandler.Classify | backend/src/middleware/errorHandler.js:1-28 | a duplicate key gives 400 with the email message exactly when the first key is `email`, else the username message; a validation error gives 400 with the first field message; a token error gives 401 with a fixed message; anything else gives its own status (or 500) and its own message (or the generic one); the checks apply in this order |
| ErrorHandler.DuplicateKeyFirst | backend/src/middleware/errorHandler.js:5-11 | a duplicate-key error is translated by its key alone, whatever name, messages or status it also carries |
| ErrorHandler.StatusTaxonomy | backend/src/middleware/errorHandler.js:5-27 | every translated status is 400, 401 or 500, unless it is the error's own status |
| PostModel.NewPost | backend/src/models/Post.js:56-89 | a new post has trimmed content, the given image or '' when none is given, empty likes, comments and reposts, and both timestamps at creation time |
| PostModel.NewComment | backend/src/models/Post.js:3-54 | a new comment has trimmed content, no likes, dislikes or replies, and a null `parentId` |
| PostModel.NewReply | backend/src/models/Post.js:26-49 | a new reply has trimmed content and its own empty likes and dislikes; by its type it has no replies |
| PostModel.ValidationMessages | backend/src/models/Post.js:62-67 | no message exactly when the post is valid (content present and at most 5000 characters, every comment and reply content present); the required message comes before the length message, which quotes the content |
| PostModel.Save | backend/src/models/Post.js:91-95 | a save stores the post exactly when it is valid, setting `updatedAt` to the save time and nothing else; a rejected save has messages |
| PostModel.NewPostValid | backend/src/models/Post.js:62-67 | a post created from non-blank content of at most 5000 characters after trimming passes validation |
| PostRoutes.ParamOr | backend/src/routes/posts.js:11-12 | an unparseable or zero parameter falls back to the default, and any other value is kept |
| PostRoutes.FeedPaging | backend/src/routes/posts.js:11-13 | page defaults to 1 and limit to 20; skip is (page-1)*limit |
| PostRoutes.CeilDiv | backend/src/routes/posts.js:62 | the result is the ceiling of the quotient, for either sign of the divisor |
| PostRoutes.Pagination | backend/src/routes/posts.js:56-64 | pages is the ceiling of total over limit, for either sign of the limit; hasMore holds exactly when page < pages |
| PostRoutes.HasMoreIffPostsRemain | backend/src/routes/posts.js:62-63 | with a positive limit, hasMore holds exactly when posts exist beyond the current page (page*limit < total) |
| PostRoutes.Project | backend/src/routes/posts.js:39-54 | id, author, content, image and creation time are the stored ones; the listed counts are the lengths of the stored lists; isLiked is false without a viewer and is otherwise whether the viewer is in likes |
| PostRoutes.Feed | backend/src/routes/posts.js:8-69 | every post of the page is projected in order, and the pagination is computed from the raw parameters and the total |
| PostRoutes.GetPost | backend/src/routes/posts.js:72-116 | a missing post gives 404; otherwise the response holds the same projection as a feed entry for that viewer, and the full comment list |
| PostRoutes.Summary | backend/src/routes/posts.js:136-152 | the create and update response is the feed projection without the isLiked field |
| PostRoutes.CreatePost | backend/src/routes/posts.js:119-157 | blank content gives 400 and stores nothing; content over 5000 characters gives 400; otherwise exactly one post is added, with trimmed content, image '' by default and empty lists |
| PostRoutes.UpdatePost | backend/src/routes/posts.js:160-202 | a missing post gives 404 and a non-author gives 403, both before any change; content changes (trimmed) only when truthy and image only when present; nothing else changes except `updatedAt`; the owner's edit succeeds exactly when the edited post passes validation, and otherwise gives 400 with the first schema message |
| PostRoutes.UpdateBlankContentRejected | backend/src/routes/posts.js:174-178 | an owner's edit whose content is only white space gives 400 with the content-required message |
| PostRoutes.UpdateImageOnly | backend/src/routes/posts.js:174-178 | an owner's edit without content keeps the stored content and succeeds on a valid post |
| PostRoutes.DeletePost | backend/src/routes/posts.js:205-224 | a missing post gives 404 and a non-author gives 403; otherwise exactly that post is removed and every other post is kept |
| PostRoutes.LikePost | backend/src/routes/posts.js:227-255 | an absent caller is appended, a present one loses one occurrence; the response gives the new length and isLiked as "was absent"; nothing else in the post changes |
| PostRoutes.LikeResponseMatchesView | backend/src/routes/posts.js:235-251 | on a duplicate-free like list, the like response's count and flag are what a later read of the post shows the same caller |
| PostRoutes.LikePostTwice | backend/src/routes/posts.js:235-251 | liking twice from not liked answers true then false and restores the like list exactly |
| PostRoutes.AddComment | backend/src/routes/posts.js:258-287 | blank content gives 400 and a missing post gives 404; otherwise one trimmed comment is appended at the end, the earlier comments are unchanged, and the response is that last comment |
| PostRoutes.FindComment | backend/src/routes/posts.js:304 | the first top-level comment with the id, or -1 when no top-level comment has it; replies are not searched |
| PostRoutes.AddReply | backend/src/routes/posts.js:290-325 | blank content gives 400, a missing post 404, and an id that is not a top-level comment 404; otherwise exactly that comment's replies grow by one trimmed reply at the end, and every other comment is unchanged |
| PostRoutes.React | backend/src/routes/posts.js:342-356 | a reaction first drops the caller from the opposite list, then toggles them in the target list, and changes nothing else in the comment |
| PostRoutes.ReactKeepsSound | backend/src/routes/posts.js:385-399 | from duplicate-free, disjoint lists, a like or dislike keeps them so, flips the caller in the target list, removes them from the other, and leaves every other id where it was |
| PostRoutes.ReactToComment | backend/src/routes/posts.js:328-411 | a missing post or a non-top-level comment gives 404; otherwise only the addressed comment changes, by `React`, and the response carries both new lengths |
| UserModel.NormalizeKey | backend/src/models/User.js:4-17 | a stored email or username is the input with surrounding white space removed and ASCII letters lower-cased, so it has no upper-case ASCII letter and no white space at either end |
| UserModel.NormalizeKeyKeepsNormal | backend/src/models/User.js:4-17 | a key that is already lower-case and unpadded is stored as given |
| UserModel.NormalizeKeyIdempotent | backend/src/models/User.js:4-17 | normalising an already normalised key changes nothing |
| UserModel.NormalizeKeyIgnoresCase | backend/src/models/User.js:4-17 | normalising ignores the case of ASCII letters |
| UserModel.NewUser | backend/src/models/User.js:3-53 | a new user has normalised email and username, a trimmed display name, empty avatar, bio and location, and no follow edges |
| UserModel.ValidationMessages | backend/src/models/User.js:3-40 | no message exactly when the user is valid (email, username, display name present; password at least 6; bio at most 160); a too-long bio alone gives the one maxlength message that quotes it |
| UserModel.ToJson | backend/src/models/User.js:56-60 | the serialised object is the stored object with exactly the password removed |
| UserModel.ToJsonIgnoresPassword | backend/src/models/User.js:56-60 | two users that differ only in password serialise identically |
| UserRoutes.FindUser | backend/src/routes/users.js:92-93 | the first user with the id, or -1 when there is none |
| UserRoutes.FindByUsername | backend/src/routes/users.js:11 | the filter value is lowercased and trimmed by the schema's setters; the first user with that normalised username, or -1 when there is none |
| UserRoutes.GetProfile | backend/src/routes/users.js:9-50 | an unknown username gives 404; otherwise the id, name, display name, avatar, bio, location and creation time are those of the user stored under the normalised name, the counts are the list lengths and isFollowing holds exactly when a valid viewer exists and follows the user |
| UserRoutes.GetProfileIgnoresCase | backend/src/routes/users.js:11 | asking for a profile with the lowercased name gives the same response |
| UserRoutes.Own | backend/src/routes/users.js:66-77 | the user object of an update response holds the seven stored profile fields |
| UserRoutes.ApplyProfile | backend/src/routes/users.js:59-62 | displayName changes (trimmed) only when truthy; bio, location and avatar change only when present; no other field changes |
| UserRoutes.UpdateProfile | backend/src/routes/users.js:53-81 | only the caller's record changes and only by the partial update; email, username and follow lists are kept; an invalid result gives 400 with the first validation message |
| UserRoutes.FollowEdit | backend/src/routes/users.js:101-113 | when following, every occurrence is filtered from both lists; otherwise both ids are appended; no other field changes |
| UserRoutes.Follow | backend/src/routes/users.js:84-125 | a self-follow gives 400 before any lookup, and an unknown target gives 404; otherwise only the two records change, and isFollowing is the negation of the previous state |
| UserRoutes.FollowFlipsOneEdge | backend/src/routes/users.js:99-113 | a follow sets exactly the caller-to-target edge, on both records, to the negation of its previous state; every other membership and every other field is unchanged |
| UserRoutes.FollowKeepsSymmetry | backend/src/routes/users.js:99-116 | one follow keeps a symmetric graph symmetric (B in A's following exactly when A in B's followers) |
| UserRoutes.FollowTwiceRestores | backend/src/routes/users.js:99-121 | on a symmetric graph, two follows by the same caller answer opposite isFollowing values and restore every membership |
| AuthRoutes.PublicObject | backend/src/routes/auth.js:44-52 | the user object has exactly the seven public keys, never the password, and agrees with the serialised user |
| AuthRoutes.OwnMatchesPublicObject | backend/src/routes/users.js:66-77 | the update response's user object carries the same seven values under the same names as the auth responses' user object |
| AuthRoutes.PublicObjectIgnoresPassword | backend/src/routes/auth.js:95-103 | the user object does not depend on the stored password |
| AuthRoutes.Admit | backend/src/routes/auth.js:27-56 | a new document failing validation gives 400 with the first message, then a taken email or username gives 400 with its own message; otherwise the user is appended and answered with a token and the public object |
| AuthRoutes.Register | backend/src/routes/auth.js:10-57 | a missing field gives 400 before any other check, then a short password gives 400; then the schema validators and the unique email and username, in that order; valid details with an unused email and username always succeed; on success exactly one normalised user is added, with a token for the new id |
| AuthRoutes.RegisterKeepsKeysUnique | backend/src/models/User.js:4-17 | a successful registration keeps ids, emails and usernames unique |
| AuthRoutes.AppendKeepsUnique | backend/src/models/User.js:4-17 | adding a user whose id, email and username are all new keeps the three unique |
| AuthRoutes.FindByLogin | backend/src/routes/auth.js:69-74 | the key is lowercased and trimmed by the schema's setters of both paths; the first user whose email or username is the normalised key, or -1 when none is |
| AuthRoutes.Login | backend/src/routes/auth.js:60-108 | a missing field gives 400; the lowercased, trimmed identifier is matched against email or username; an unknown user and a wrong password both give 401 with the same message; a found user with a matching password always logs in; on success the token and user object of the matched user |
| AuthRoutes.LoginIgnoresCase | backend/src/routes/auth.js:71-72 | logging in with the lowercased identifier gives the same outcome as the identifier itself |
| AuthRoutes.CredentialFailuresIndistinguishable | backend/src/routes/auth.js:76-85 | an unknown identifier and a known one with a wrong password give identical failures |
| AuthRoutes.Me | backend/src/routes/auth.js:111-123 | the current-user response has exactly the seven public keys, never the password, and agrees with the serialised user |
| Validations.UsernameError | frontend/src/lib/validations.ts:4-10 | no error exactly when the length is 3..20 and the name is a letter followed by letters, digits or `_`; the checks report in the order min, max, pattern |
| Validations.EmailError | frontend/src/lib/validations.ts:12-14 | no error exactly when the email-format check holds |
| Validations.PasswordError | frontend/src/lib/validations.ts:16-18 | no error exactly when the password has at least 6 characters |
| Validations.DisplayNameError | frontend/src/lib/validations.ts:20-23 | no error exactly when the length is 2..50; too short and too long give their own messages |
| Validations.SignupIssues | frontend/src/lib/validations.ts:25-30 | no issue exactly when all four field schemas hold |
| Validations.LoginIssues | frontend/src/lib/validations.ts:32-35 | no issue exactly when the identifier is non-empty and the password is valid |
| AuthForm.CleanUsername | frontend/src/pages/Auth.tsx:58 | the cleaned value keeps every character of `[a-zA-Z0-9_]`, as often as it occurs, and nothing else |
| AuthForm.CleanUsernameIdempotent | frontend/src/pages/Auth.tsx:58 | cleaning a cleaned value changes nothing |
| AuthForm.CleanUsernameConcat | frontend/src/pages/Auth.tsx:58 | cleaning works piecewise, so the kept characters stay in their original order |
| AuthForm.CleanedUsernameOk | frontend/src/pages/Auth.tsx:56-66 | a cleaned value passes the username schema exactly when its length is 3..20 and it starts with a letter |
| AuthForm.UsernameChange | frontend/src/pages/Auth.tsx:56-67 | an empty cleaned value clears the username error; otherwise the error is the schema's message, and the other errors are kept |
| AuthForm.LoginSubmit | frontend/src/pages/Auth.tsx:75-90 | a blank identifier, then an invalid password, each set only their own error and make no call; otherwise login is called with the trimmed identifier |
| AuthForm.SignupErrors | frontend/src/pages/Auth.tsx:99-120 | there is an error entry for a field exactly when its schema fails, and it holds that schema's first message |
| AuthForm.SignupSubmit | frontend/src/pages/Auth.tsx:98-133 | signup is called exactly when all four schemas hold, with email, username and display name trimmed; otherwise every failing field is reported |
| AuthForm.SignupChecksUntrimmedName | frontend/src/pages/Auth.tsx:101-133 | a padded one-letter display name passes the gate but is sent as a name below the schema minimum |
| PostCard.Rank | frontend/src/components/post/PostCard.tsx:305-316 | best ranks by likes minus dislikes descending, newest by creation time descending, oldest ascending |
| PostCard.Insert | frontend/src/components/post/PostCard.tsx:309-316 | insertion adds exactly the one comment |
| PostCard.InsertSorted | frontend/src/components/post/PostCard.tsx:309-316 | insertion keeps a sorted list sorted |
| PostCard.Sort | frontend/src/components/post/PostCard.tsx:309-316 | the sorted copy is a permutation of the comments and is ordered by the mode's rank |
| PostCard.SortStable | frontend/src/components/post/PostCard.tsx:305-316 | comments of equal rank keep their input order |
| PostCard.AddReply | frontend/src/components/post/PostCard.tsx:209-225 | every comment with the parent id gets the reply appended; every other node keeps its fields, and its replies are searched the same way when present and left alone otherwise |
| PostCard.AddReplyNoMatch | frontend/src/components/post/PostCard.tsx:209-225 | a parent id that occurs nowhere leaves the forest unchanged |
| PostCard.AddReplyGrows | frontend/src/components/post/PostCard.tsx:209-225 | the forest grows exactly when the parent id occurs in it, and never shrinks |
| PostCard.ExternalHref | frontend/src/components/post/PostCard.tsx:267-273 | the link is kept exactly when it starts with "http", else "https://" is prefixed, so the result always starts with "http" |
| PostCard.ExternalHrefIdempotent | frontend/src/components/post/PostCard.tsx:270 | normalising a normalised link changes nothing |
| PostCard.PostAge | frontend/src/components/post/PostCard.tsx:247-265 | under a minute is "now", then whole minutes under 60, hours under 24, days under 7, else a date that shows the year beyond 365 days |
| PostCard.Shown | frontend/src/components/post/PostCard.tsx:413-417 | the whole content is shown exactly when expanded or at most 250 characters long; otherwise its first 250 characters |
| PostCard.Repost | frontend/src/components/post/PostCard.tsx:126-133 | a logged-out viewer changes nothing; otherwise the flag flips and the count moves by one in the matching direction |
| PostCard.RepostTwice | frontend/src/components/post/PostCard.tsx:126-133 | two reposts cancel out |
| PostCard.LikePost | frontend/src/components/post/PostCard.tsx:112-124 | a logged-out viewer or a failed request changes nothing; otherwise the flag flips and the count is the server's |
| LikeSync.CardFollowsServer | frontend/src/components/post/PostCard.tsx:112-124 | after a successful like, a card that showed the stored flag shows the server's count and flag, which are also what a fresh read shows |
| PostCard.AddComment | frontend/src/components/post/PostCard.tsx:154-182 | a blank draft or a failed request changes nothing; otherwise the returned comment is appended with zero counts and no replies, and the counter grows by one |
| CommentItem.Initial | frontend/src/components/post/CommentItem.tsx:40-43 | a row starts with both flags cleared and the comment's counts |
| CommentItem.LocalLike | frontend/src/components/post/CommentItem.tsx:66-82 | liking when liked decrements and clears; otherwise it increments and sets, withdrawing a dislike |
| CommentItem.LocalDislike | frontend/src/components/post/CommentItem.tsx:95-111 | the dislike counterpart of the local like |
| CommentItem.LocalDislikeMirrorsLike | frontend/src/components/post/CommentItem.tsx:95-111 | disliking is liking with likes and dislikes exchanged |
| CommentItem.LocalActionsKeepCounts | frontend/src/components/post/CommentItem.tsx:69-79 | the local actions keep the displayed counts equal to the comment's counts plus the viewer's reaction |
| CommentItem.LocalLikeTwice | frontend/src/components/post/CommentItem.tsx:69-79 | liking twice from no reaction returns to it |
| CommentItem.ApiLike | frontend/src/components/post/CommentItem.tsx:84-92 | with the server, the counts are the response's, the like flag flips and the dislike flag clears; a failure changes nothing |
| CommentItem.ApiDislike | frontend/src/components/post/CommentItem.tsx:113-121 | the dislike counterpart of the like with the server |
| CommentItem.Run | frontend/src/components/post/CommentItem.tsx:66-122 | any sequence of actions keeps the two flags exclusive |
| CommentItem.ExclusiveAlways | frontend/src/components/post/CommentItem.tsx:40-122 | from the initial state, isLiked and isDisliked are never both set |
| CommentItem.LocalRunCountsAgree | frontend/src/components/post/CommentItem.tsx:66-111 | any sequence of local actions keeps the displayed counts equal to the comment's counts plus the viewer's reaction |
| CommentItem.CanReply | frontend/src/components/post/CommentItem.tsx:131-132 | the reply button is offered at depths 0, 1 and 2 and at no other depth |
| CommentItem.FirstSpace | frontend/src/components/post/CommentItem.tsx:46 | the position of the first white-space character, or the length when there is none |
| CommentItem.SplitSpace | frontend/src/components/post/CommentItem.tsx:46 | the pieces contain no white space; the first piece runs up to the first white space; there is one piece exactly when the string has no white space |
| CommentItem.Initials | frontend/src/components/post/CommentItem.tsx:45-51 | empty exactly for a blank name; otherwise the first character of the trimmed name, and a second one exactly when the trimmed name has a space inside, namely the first character after the first run of white space |
| CommentItem.CommentAge | frontend/src/components/post/CommentItem.tsx:53-64 | under an hour is "now", then whole hours under 24, days under 7, else a date |
| FeedCache.Placeholder | frontend/src/pages/Index.tsx:37-52 | the placeholder has a "temp-" id, the draft's content, image and author, zero counts and isLiked false |
| FeedCache.OptimisticCreate | frontend/src/pages/Index.tsx:29-60 | exactly one placeholder is put in front, the rest of the list is unchanged, and the previous entry is the snapshot |
| FeedCache.ConfirmCreate | frontend/src/pages/Index.tsx:61-67 | the server post is put in front and every "temp-" post is dropped; the other posts are kept |
| FeedCache.SetQueryData | frontend/src/pages/Index.tsx:68-70 | an undefined value leaves the entry as it is; any other value replaces it |
| FeedCache.NewPost | frontend/src/pages/Index.tsx:29-94 | a logged-out viewer changes nothing; a failed create restores a cached list, but leaves the placeholder alone in an unset cache because an undefined snapshot is ignored; a successful one leaves the server post in front of the non-placeholder posts |
| FeedCache.PlaceholderDropped | frontend/src/pages/Index.tsx:54-66 | confirming right after the optimistic insert drops its placeholder again |
| FeedCache.DeletePost | frontend/src/pages/Index.tsx:96-103 | after a successful delete exactly the posts with the id are gone and the others are kept; a failure changes nothing |
| FeedCache.DeletePostOrder | frontend/src/pages/Index.tsx:101-103 | deleting keeps the remaining posts in their order |
| FeedCache.EditPost | frontend/src/pages/Index.tsx:118-130 | after a successful edit every post with the id is the server's version and every other post is unchanged |
| FeedCache.EditPostKeepsIds | frontend/src/pages/Index.tsx:118-130 | when the server's version carries the edited id, the cached ids stay the same and in the same order |
| FeedCache.EditPostAbsent | frontend/src/pages/Index.tsx:118-130 | editing an id absent from the cache leaves every cached post as it was |
| ReplyDepth.ReplyToReplyRejected | backend/src/routes/posts.js:304-308 | the row offers a reply at depths 1 and 2, yet a reply to a reply gets 404 "comment not found" |
| ReplyDepth.ReactToReplyRejected | backend/src/routes/posts.js:336-340 | liking or disliking a reply through the server gets 404 "comment not found" |
| ReplyDepth.ClientInsertsUnderReply | frontend/src/components/post/PostCard.tsx:217-221 | the client's insertion does reach a reply under a top-level comment |
| Seqs.RemoveFirst | backend/src/routes/posts.js:235-239 | an absent element leaves the list unchanged; a present one loses exactly one occurrence |
| Seqs.Toggle | backend/src/routes/posts.js:235-243 | an absent id is added once; a present one loses exactly one occurrence |
| Seqs.ToggleNoDup | backend/src/routes/posts.js:235-243 | on a duplicate-free list the toggle flips the id's membership, keeps the list duplicate-free and leaves every other id |
| Seqs.RemoveAll | backend/src/routes/users.js:103-108 | every occurrence of the id is gone and every other id keeps its count |
| Text.Trim | backend/src/models/Post.js:62-67 | the trimmed string is the infix that starts after the leading white space and is followed only by white space; it has no white space at either end and is empty exactly when the input is blank |
| Text.TrimUnique | backend/src/models/Post.js:62-67 | an unpadded infix with only white space around it is the trim |
| Text.Lower | backend/src/routes/auth.js:71-72 | each ASCII upper-case letter becomes its lower-case letter and every other character is kept, so no upper-case ASCII letter remains and white space stays white space |
| Text.LowerTrimCommute | backend/src/models/User.js:4-17 | lower-casing then trimming equals trimming then lower-casing |
| Text.TrimIdempotent | backend/src/models/Post.js:62-67 | trimming twice is trimming once |

## Left out

- Database access is not modelled: queries, `populate`, sort/skip/limit, `countDocuments` and ObjectId casting. The feed receives the page the query returned and the total count. When `page` and `limit` make the skip `(page - 1) * limit` negative (page 2 with limit -5, or page -1 with limit 5), the database rejects the query and the app answers 500; the model answers with the page it is given. A malformed id, which makes the driver throw a cast error, is not modelled.
- bcrypt hashing and comparison are parameters, and a JWT is the id it carries. Signing, expiry and the authentication middleware are not part of this model.
- The email format of the client schema is a parameter.
- Concurrency is not modelled. In particular, the two saves of a follow call are not atomic; the model writes both records at once.
- Clocks are parameters. Locale date formatting and `renderContentWithLinks` are not modelled.
- The followers, following and user-posts listing endpoints of `backend/src/routes/users.js` are not modelled. They only run queries with `populate`.
- Text.Lower: lowercases ASCII letters only, not the rest of Unicode. Lengths count code points, where JavaScript counts UTF-16 code units.
- PostModel.ValidationMessages: follows the schema's path order. Mongoose's exact error order for subdocuments and its comment messages are approximated. The quoted value is the string itself; Mongoose's own formatting of it is not modelled.
- UserModel.ValidationMessages: covers the required, minlength and maxlength validators. The unique indexes are checked by `AuthRoutes.Register`.
- Comments that reach the client from the single-post endpoint carry like and dislike id lists, while the client's comment type declares numbers. The card model follows the declared type.
- UserRoutes.FollowTwiceRestores: requires a symmetric, id-unique graph. Without symmetry the second call's filter may remove more than the first call added.
- UserRoutes.UpdateProfile: requires the caller to exist, as the authentication middleware guarantees. A deleted caller would make the handler throw.
- UserRoutes.Follow: requires the caller to exist, for the same reason.
- AuthRoutes.Register: requires the new document id to be fresh.
- PostRoutes.CreatePost: requires the new document id to be fresh.
- Express and React wiring, toasts and dialogs are not modelled. The error translator's logging is not modelled.
- Profile, user-profile and single-post pages are not modelled. They repeat the list updates of `frontend/src/pages/Index.tsx` and `frontend/src/components/post/PostCard.tsx`.

=== FILE: auth_form.dfy ===
/** The sign-in page of frontend/src/pages/Auth.tsx: the username input filter and the submit
    gate that either records field errors or calls the login / signup action. */
module AuthForm {
  import opened Base
  import opened Text
  import opened Seqs
  import opened Validations

  /** The form's error record: field name to message. */
  type Errors = map<string, string>

  /** `value.replace(/[^a-zA-Z0-9_]/g, "")`: the word characters of the input, in order. */
  function CleanUsername(value: string): (c: string)
    ensures |c| <= |value|
    ensures forall i :: 0 <= i < |c| ==> IsWordChar(c[i])
    ensures forall ch :: IsWordChar(ch) ==> multiset(c)[ch] == multiset(value)[ch]
    ensures forall ch :: !IsWordChar(ch) ==> ch !in c
  {
    var c := Filter(value, IsWordChar);
    forall ch ensures multiset(c)[ch] == if IsWordChar(ch) then multiset(value)[ch] else 0 {
      FilterCount(value, IsWordChar, ch);
    }
    assert forall ch :: !IsWordChar(ch) ==> multiset(c)[ch] == 0;
    c
  }

  /** Cleaning is idempotent. */
  lemma CleanUsernameIdempotent(value: string)
    ensures CleanUsername(CleanUsername(value)) == CleanUsername(value)
  {
    FilterKeepsAll(CleanUsername(value), IsWordChar);
  }

  /** Cleaning works piecewise, so the kept characters stay in their original order. */
  lemma CleanUsernameConcat(a: string, b: string)
    ensures CleanUsername(a + b) == CleanUsername(a) + CleanUsername(b)
  {
    FilterConcat(a, b, IsWordChar);
  }

  /** A cleaned value passes the username schema exactly when its length is 3..20 and it starts
      with a letter: the character class of the pattern holds by construction. */
  lemma CleanedUsernameOk(value: string)
    ensures var c := CleanUsername(value);
      UsernameOk(c) <==> (UsernameMin <= |c| <= UsernameMax && IsAsciiLetter(c[0]))
  {
  }

  /** `handleUsernameChange`: the new field value and error record. An empty cleaned value clears
      the username error; otherwise the error is the schema's message, or "" when it passes. */
  function UsernameChange(errors: Errors, value: string): (r: (string, Errors))
    ensures r.0 == CleanUsername(value)
    ensures r.1.Keys == errors.Keys + {"username"}
    ensures forall k :: k in errors && k != "username" ==> r.1[k] == errors[k]
    ensures r.1["username"] == "" <==> (r.0 == "" || UsernameOk(r.0))
    ensures r.0 != "" && !UsernameOk(r.0) ==> Some(r.1["username"]) == UsernameError(r.0)
  {
    var cleaned := CleanUsername(value);
    var message := if cleaned != "" then UsernameError(cleaned).GetOr("") else "";
    (cleaned, errors["username" := message])
  }

  /** What a submit does: record errors and stop, or call the auth action. */
  datatype Submit =
    | Reject(errors: Errors)
    | CallLogin(identifier: string, password: string)
    | CallSignup(email: string, username: string, displayName: string, password: string)

  /** The login branch of `handleSubmit`: a blank identifier, then an invalid password, each stop
      with that one error; otherwise login is called with the trimmed identifier. */
  function LoginSubmit(identifier: string, password: string): (r: Submit)
    ensures IsBlank(identifier) ==> r == Reject(map["emailOrUsername" := IdentifierRequired])
    ensures !IsBlank(identifier) && |password| < PasswordMin ==> r == Reject(map["password" := PasswordTooShort])
    ensures r.CallLogin? <==> !IsBlank(identifier) && |password| >= PasswordMin
    ensures r.CallLogin? ==> r.identifier == Trim(identifier) && r.identifier != "" && r.password == password
    ensures r.Reject? ==> |r.errors.Keys| == 1
  {
    if Trim(identifier) == "" then Reject(map["emailOrUsername" := IdentifierRequired])
    else
      match PasswordError(password)
      case Some(m) => Reject(map["password" := m])
      case None => CallLogin(Trim(identifier), password)
  }

  /** The error record of the signup branch: one entry per failing field schema. */
  function SignupErrors(email: string, username: string, displayName: string, password: string,
                        isEmail: string -> bool): (errs: Errors)
    ensures "displayName" in errs <==> DisplayNameError(displayName).Some?
    ensures "username" in errs <==> !UsernameOk(username)
    ensures "email" in errs <==> !isEmail(email)
    ensures "password" in errs <==> |password| < PasswordMin
    ensures errs.Keys <= {"displayName", "username", "email", "password"}
    ensures "displayName" in errs ==> errs["displayName"] == DisplayNameError(displayName).value
    ensures "username" in errs ==> errs["username"] == UsernameError(username).value
    ensures "email" in errs ==> errs["email"] == EmailError(email, isEmail).value
    ensures "password" in errs ==> errs["password"] == PasswordError(password).value
    ensures forall k :: k in errs ==> errs[k] != ""
  {
    var e0: Errors := map[];
    var e1 := if DisplayNameError(displayName).Some? then e0["displayName" := DisplayNameError(displayName).value] else e0;
    var e2 := if UsernameError(username).Some? then e1["username" := UsernameError(username).value] else e1;
    var e3 := if EmailError(email, isEmail).Some? then e2["email" := EmailError(email, isEmail).value] else e2;
    if PasswordError(password).Some? then e3["password" := PasswordError(password).value] else e3
  }

  /** The signup branch of `handleSubmit`: the raw fields are validated, every failing one is
      reported, and signup is called only when none fails, with email, username and display
      name trimmed and the password as typed. */
  function SignupSubmit(email: string, username: string, displayName: string, password: string,
                        isEmail: string -> bool): (r: Submit)
    ensures r.Reject? ==> r.errors == SignupErrors(email, username, displayName, password, isEmail) && r.errors != map[]
    ensures r.CallSignup? <==> SignupIssues(email, username, displayName, password, isEmail) == []
    ensures r.CallSignup? ==> r == CallSignup(Trim(email), Trim(username), Trim(displayName), password)
    ensures !r.CallLogin?
  {
    var errs := SignupErrors(email, username, displayName, password, isEmail);
    if |errs.Keys| > 0 then Reject(errs)
    else CallSignup(Trim(email), Trim(username), Trim(displayName), password)
  }

  /** The signup gate checks the display name before trimming it, so a padded one-letter name
      reaches the server as a single character, below the schema's minimum of two. */
  lemma SignupChecksUntrimmedName(isEmail: string -> bool)
    requires isEmail("a@b.co")
    ensures var r := SignupSubmit("a@b.co", "alice", " a", "secret", isEmail);
      r.CallSignup? && DisplayNameError(r.displayName).Some?
  {
    assert UsernamePattern("alice");
    assert Trim(" a") == "a" by {
      assert LeadingSpace(" a") == 1;
      assert TrailingSpace(" a"[1..]) == 0;
    }
  }
}

=== FILE: auth_routes.dfy ===
/** The register, login and current-user handlers of backend/src/routes/auth.js.
    Password hashing and comparison are parameters; a signed token is represented by the
    id it carries. */
module AuthRoutes {
  import opened Base
  import opened Text
  import opened UserModel
  import opened Seqs
  import opened UserRoutes
  import ErrorHandler

  const AllFieldsRequired := "جميع الحقول مطلوبة"
  const PasswordTooShortMessage := "كلمة المرور يجب أن تكون 6 أحرف على الأقل"
  const BadCredentials := "البريد/اسم المستخدم أو كلمة المرور غير صحيحة"

  /** A signed token; it carries only the user id. */
  datatype Token = Token(userId: Id)

  /** The keys of the user object that register, login and the current-user route return. */
  const PublicKeys: set<string> := {"id", "email", "username", "displayName", "avatar", "bio", "location"}

  /** The user object of a response: seven profile paths by name, the password never among them. */
  function PublicObject(u: User): (m: map<string, string>)
    ensures m.Keys == PublicKeys
    ensures "password" !in m
    ensures m["id"] == u.id
    ensures forall k :: k in m && k != "id" ==> k in ToJson(u) && ToJson(u)[k] == Str(m[k])
  {
    map["id" := u.id, "email" := u.email, "username" := u.username, "displayName" := u.displayName,
        "avatar" := u.avatar, "bio" := u.bio, "location" := u.location]
  }

  /** The user object answered by a profile update carries the same seven values, under the
      same names, as the one answered by register, login and `me`. */
  lemma OwnMatchesPublicObject(u: User)
    ensures var m := PublicObject(u); var p := Own(u);
      && m["id"] == p.id && m["email"] == p.email && m["username"] == p.username
      && m["displayName"] == p.displayName && m["avatar"] == p.avatar
      && m["bio"] == p.bio && m["location"] == p.location
  {
  }

  /** The public object does not depend on the stored password hash. */
  lemma PublicObjectIgnoresPassword(u: User, pw: string)
    ensures PublicObject(u.(password := pw)) == PublicObject(u)
  {
    assert PublicObject(u.(password := pw)).Keys == PublicObject(u).Keys;
  }

  /** Whether a stored user already holds the email or the username (the unique indexes). */
  predicate EmailTaken(users: Users, email: string) {
    exists i :: 0 <= i < |users| && users[i].email == email
  }

  predicate UsernameTaken(users: Users, username: string) {
    exists i :: 0 <= i < |users| && users[i].username == username
  }

  /** No two stored users share an email or a username. */
  predicate UniqueKeys(users: Users) {
    forall i, j :: 0 <= i < |users| && 0 <= j < |users| && i != j ==>
      users[i].email != users[j].email && users[i].username != users[j].username
  }

  /** `POST /auth/register`. `newId` is the fresh document id and `hash` stands for bcrypt.
      The field checks come first, then the password length, then the schema validators on the
      normalised document, then the unique indexes (email before username). */
  function Register(users: Users, email: Option<string>, username: Option<string>, displayName: Option<string>,
                    password: Option<string>, newId: Id, hash: string -> string, now: int)
    : (r: Result<(Users, Token, map<string, string>)>)
    requires FindUser(users, newId) == -1
    ensures !(Truthy(email) && Truthy(username) && Truthy(displayName) && Truthy(password)) ==>
      r == Fail(400, Some(AllFieldsRequired))
    ensures (Truthy(email) && Truthy(username) && Truthy(displayName) && Truthy(password)
             && |password.value| < MinPassword) ==> r == Fail(400, Some(PasswordTooShortMessage))
    ensures (Truthy(email) && Truthy(username) && Truthy(displayName) && Truthy(password)
             && |password.value| >= MinPassword) ==>
      var u := NewUser(newId, email.value, username.value, displayName.value, hash(password.value), now);
      && (!ValidUser(u) ==> r == Fail(400, Some(ValidationMessages(u)[0])))
      && (ValidUser(u) && EmailTaken(users, u.email) ==> r == Fail(400, Some(ErrorHandler.EmailTaken)))
      && (ValidUser(u) && !EmailTaken(users, u.email) && UsernameTaken(users, u.username) ==>
            r == Fail(400, Some(ErrorHandler.UsernameTaken)))
      && (ValidUser(u) && !EmailTaken(users, u.email) && !UsernameTaken(users, u.username) ==>
            r == Ok((users + [u], Token(newId), PublicObject(u))))
    ensures r.Ok? ==> Truthy(email) && Truthy(username) && Truthy(displayName) && |password.GetOr("")| >= MinPassword
    ensures r.Ok? ==>
      var u := NewUser(newId, email.value, username.value, displayName.value, hash(password.value), now);
      && ValidUser(u)
      && !EmailTaken(users, u.email) && !UsernameTaken(users, u.username)
      && r.value == (users + [u], Token(newId), PublicObject(u))
    ensures r.Fail? ==> r.status == 400
  {
    if !(Truthy(email) && Truthy(username) && Truthy(displayName) && Truthy(password)) then
      Fail(400, Some(AllFieldsRequired))
    else if |password.value| < MinPassword then
      Fail(400, Some(PasswordTooShortMessage))
    else
      Admit(users, NewUser(newId, email.value, username.value, displayName.value, hash(password.value), now))
  }

  /** `user.save()` of a new document and the response: the schema validators first, then the
      unique indexes, email before username. */
  function Admit(users: Users, u: User): (r: Result<(Users, Token, map<string, string>)>)
    ensures !ValidUser(u) ==> r == Fail(400, Some(ValidationMessages(u)[0]))
    ensures ValidUser(u) && EmailTaken(users, u.email) ==> r == Fail(400, Some(ErrorHandler.EmailTaken))
    ensures ValidUser(u) && !EmailTaken(users, u.email) && UsernameTaken(users, u.username) ==>
      r == Fail(400, Some(ErrorHandler.UsernameTaken))
    ensures ValidUser(u) && !EmailTaken(users, u.email) && !UsernameTaken(users, u.username) ==>
      r == Ok((users + [u], Token(u.id), PublicObject(u)))
  {
    var ms := ValidationMessages(u);
    if ms != [] then ErrorHandler.AsFailure(ErrorHandler.ValidationFailure(ms))
    else if EmailTaken(users, u.email) then ErrorHandler.AsFailure(ErrorHandler.DuplicateKey(["email"]))
    else if UsernameTaken(users, u.username) then ErrorHandler.AsFailure(ErrorHandler.DuplicateKey(["username"]))
    else Ok((users + [u], Token(u.id), PublicObject(u)))
  }

  /** A successful registration keeps ids, emails and usernames unique. */
  lemma RegisterKeepsKeysUnique(users: Users, email: Option<string>, username: Option<string>,
                                displayName: Option<string>, password: Option<string>, newId: Id,
                                hash: string -> string, now: int)
    requires FindUser(users, newId) == -1
    requires UniqueIds(users) && UniqueKeys(users)
    ensures var r := Register(users, email, username, displayName, password, newId, hash, now);
      r.Ok? ==> UniqueIds(r.value.0) && UniqueKeys(r.value.0)
  {
    var r := Register(users, email, username, displayName, password, newId, hash, now);
    if r.Ok? {
      var u := NewUser(newId, email.value, username.value, displayName.value, hash(password.value), now);
      AppendKeepsUnique(users, u);
    }
  }

  /** Appending a user whose id, email and username are all new keeps the collection unique. */
  lemma AppendKeepsUnique(users: Users, u: User)
    requires UniqueIds(users) && UniqueKeys(users)
    requires FindUser(users, u.id) == -1 && !EmailTaken(users, u.email) && !UsernameTaken(users, u.username)
    ensures UniqueIds(users + [u]) && UniqueKeys(users + [u])
  {
    var users' := users + [u];
    var n := |users|;
    forall i | 0 <= i < n
      ensures users'[i].id != u.id && users'[i].email != u.email && users'[i].username != u.username
    {
      assert users'[i] == users[i];
    }
  }

  /** The query filter `{$or: [{email: key}, {username: key}]}`. */
  function MatchesLogin(key: string): User -> bool {
    (u: User) => u.email == key || u.username == key
  }

  /** `User.findOne({$or: [{email: key}, {username: key}]})`: the key goes through the schema's
      lowercase and trim setters of both paths before it is compared; the first user in natural
      order whose email or username is the normalised key, or -1. */
  function FindByLogin(users: Users, key: string): (k: int)
    ensures -1 <= k < |users|
    ensures k == -1 <==> forall i :: 0 <= i < |users| ==>
      users[i].email != NormalizeKey(key) && users[i].username != NormalizeKey(key)
    ensures 0 <= k ==> (users[k].email == NormalizeKey(key) || users[k].username == NormalizeKey(key))
    ensures 0 <= k ==> forall i :: 0 <= i < k ==>
      users[i].email != NormalizeKey(key) && users[i].username != NormalizeKey(key)
  {
    FirstWhere(users, MatchesLogin(NormalizeKey(key)))
  }

  /** `POST /auth/login`. `compare` stands for bcrypt's check of a password against a stored hash.
      The identifier is lowercased by the handler and trimmed by the schema's setters before the
      lookup; an unknown identifier and a wrong password produce the same response. */
  function Login(users: Users, identifier: Option<string>, password: Option<string>,
                 compare: (string, string) -> bool): (r: Result<(Token, map<string, string>)>)
    ensures !(Truthy(identifier) && Truthy(password)) ==> r == Fail(400, Some(AllFieldsRequired))
    ensures (Truthy(identifier) && Truthy(password) && FindByLogin(users, identifier.value) == -1)
      ==> r == Fail(401, Some(BadCredentials))
    ensures (Truthy(identifier) && Truthy(password) && FindByLogin(users, identifier.value) != -1
             && !compare(password.value, users[FindByLogin(users, identifier.value)].password))
      ==> r == Fail(401, Some(BadCredentials))
    ensures (Truthy(identifier) && Truthy(password) && FindByLogin(users, identifier.value) != -1
             && compare(password.value, users[FindByLogin(users, identifier.value)].password))
      ==> r.Ok?
    ensures r.Ok? ==> Truthy(identifier) && Truthy(password) && FindByLogin(users, identifier.value) != -1
    ensures r.Ok? ==>
      var u := users[FindByLogin(users, identifier.value)];
      && (u.email == NormalizeKey(identifier.value) || u.username == NormalizeKey(identifier.value))
      && compare(password.value, u.password)
      && r.value == (Token(u.id), PublicObject(u))
  {
    if !(Truthy(identifier) && Truthy(password)) then Fail(400, Some(AllFieldsRequired))
    else
      NormalizeKeyIgnoresCase(identifier.value);
      var k := FindByLogin(users, Lower(identifier.value));
      if k == -1 then Fail(401, Some(BadCredentials))
      else if !compare(password.value, users[k].password) then Fail(401, Some(BadCredentials))
      else Ok((Token(users[k].id), PublicObject(users[k])))
  }

  /** The login lookup ignores the case of the identifier's ASCII letters. */
  lemma LoginIgnoresCase(users: Users, identifier: string, password: Option<string>, compare: (string, string) -> bool)
    ensures Login(users, Some(Lower(identifier)), password, compare) == Login(users, Some(identifier), password, compare)
  {
    var key := Lower(identifier);
    NormalizeKeyIgnoresCase(identifier);
    NormalizeKeyIgnoresCase(key);
    LowerIdempotent(identifier);
    assert FindByLogin(users, Lower(key)) == FindByLogin(users, identifier);
    assert Truthy(Some(key)) <==> Truthy(Some(identifier));
  }

  /** A caller cannot tell an unknown identifier from a known one with a wrong password:
      both calls fail with the same status and message. */
  lemma CredentialFailuresIndistinguishable(users: Users, unknown: string, known: string, password: string,
                                            compare: (string, string) -> bool)
    requires unknown != "" && known != "" && password != ""
    requires FindByLogin(users, unknown) == -1
    requires FindByLogin(users, known) != -1
    requires !compare(password, users[FindByLogin(users, known)].password)
    ensures Login(users, Some(unknown), Some(password), compare) == Login(users, Some(known), Some(password), compare)
    ensures Login(users, Some(unknown), Some(password), compare).Fail?
  {
  }

  /** `GET /auth/me`: the loaded user's public object. */
  function Me(u: User): (m: map<string, string>)
    ensures m.Keys == PublicKeys && "password" !in m
    ensures m["id"] == u.id
    ensures forall k :: k in m && k != "id" ==> k in ToJson(u) && ToJson(u)[k] == Str(m[k])
  {
    PublicObject(u)
  }
}

=== FILE: base.dfy ===
/** Shared value types: identifiers, optional values and handler outcomes. */
module Base {

  /** Document and user identifiers (ObjectId strings on the server, plain strings on the client). */
  type Id = string

  /** An absent request field (`undefined`) is None. */
  datatype Option<+T> = None | Some(value: T) {
    function GetOr(default: T): T {
      match this
      case Some(v) => v
      case None => default
    }
  }

  /** The outcome of a request handler: a value, or an HTTP status with the JSON `error` string
      (None when the body carries no `error` field). */
  datatype Result<+T> = Ok(value: T) | Fail(status: int, error: Option<string>)

  /** JavaScript truthiness of an optional string field: present and non-empty. */
  predicate Truthy(s: Option<string>) {
    s.Some? && s.value != ""
  }
}

=== FILE: comment_item.dfy ===
/** The comment row of frontend/src/components/post/CommentItem.tsx: the like/dislike state
    machine (a local fallback without a post id, the server's counts with one), the reply depth
    cap, the avatar initials and the relative-time label. */
module CommentItem {
  import opened Base
  import opened Text

  /** The row's reaction state: the viewer's two flags and the two displayed counts. */
  datatype Reactions = Reactions(isLiked: bool, isDisliked: bool, likes: int, dislikes: int)

  /** The state a row starts in: both flags cleared and the comment's own counts. */
  function Initial(likes: int, dislikes: int): (s: Reactions)
    ensures !s.isLiked && !s.isDisliked && s.likes == likes && s.dislikes == dislikes
  {
    Reactions(false, false, likes, dislikes)
  }

  /** The two flags are never both set. */
  predicate Exclusive(s: Reactions) {
    !(s.isLiked && s.isDisliked)
  }

  /** The displayed counts are the comment's counts plus the viewer's own reaction. */
  predicate CountsAgree(s: Reactions, baseLikes: int, baseDislikes: int) {
    && s.likes == baseLikes + (if s.isLiked then 1 else 0)
    && s.dislikes == baseDislikes + (if s.isDisliked then 1 else 0)
  }

  /** `handleLike` without a post id: unlike, or like and withdraw a dislike. */
  function LocalLike(s: Reactions): (t: Reactions)
    ensures Exclusive(t)
    ensures s.isLiked ==> t == s.(likes := s.likes - 1, isLiked := false)
    ensures !s.isLiked ==> t.isLiked && !t.isDisliked && t.likes == s.likes + 1
    ensures !s.isLiked ==> t.dislikes == (if s.isDisliked then s.dislikes - 1 else s.dislikes)
  {
    if s.isLiked then s.(likes := s.likes - 1, isLiked := false)
    else
      var t := s.(likes := s.likes + 1, isLiked := true);
      if s.isDisliked then t.(dislikes := s.dislikes - 1, isDisliked := false) else t
  }

  /** `handleDislike` without a post id: undislike, or dislike and withdraw a like. */
  function LocalDislike(s: Reactions): (t: Reactions)
    ensures Exclusive(t)
    ensures s.isDisliked ==> t == s.(dislikes := s.dislikes - 1, isDisliked := false)
    ensures !s.isDisliked ==> t.isDisliked && !t.isLiked && t.dislikes == s.dislikes + 1
    ensures !s.isDisliked ==> t.likes == (if s.isLiked then s.likes - 1 else s.likes)
  {
    if s.isDisliked then s.(dislikes := s.dislikes - 1, isDisliked := false)
    else
      var t := s.(dislikes := s.dislikes + 1, isDisliked := true);
      if s.isLiked then t.(likes := s.likes - 1, isLiked := false) else t
  }

  /** The same state with likes and dislikes exchanged. */
  function Swap(s: Reactions): Reactions {
    Reactions(s.isDisliked, s.isLiked, s.dislikes, s.likes)
  }

  /** Disliking is liking seen in the mirror. */
  lemma LocalDislikeMirrorsLike(s: Reactions)
    ensures LocalDislike(s) == Swap(LocalLike(Swap(s)))
  {
  }

  /** From an exclusive state whose counts agree with the comment's, both local actions keep
      the counts in agreement. */
  lemma LocalActionsKeepCounts(s: Reactions, baseLikes: int, baseDislikes: int)
    requires Exclusive(s) && CountsAgree(s, baseLikes, baseDislikes)
    ensures CountsAgree(LocalLike(s), baseLikes, baseDislikes)
    ensures CountsAgree(LocalDislike(s), baseLikes, baseDislikes)
  {
  }

  /** Liking twice from a state with no reaction returns to it. */
  lemma LocalLikeTwice(s: Reactions)
    requires !s.isLiked && !s.isDisliked
    ensures LocalLike(LocalLike(s)) == s
  {
  }

  /** The response of the comment like/dislike endpoints, or None when the request failed. */
  type Counts = Option<(int, int)>

  /** `handleLike` with a post id: on success the server's counts are shown, the like flag flips
      and the dislike flag is cleared; a failed request changes nothing. */
  function ApiLike(s: Reactions, response: Counts): (t: Reactions)
    ensures response.None? ==> t == s
    ensures response.Some? ==> t == Reactions(!s.isLiked, false, response.value.0, response.value.1)
    ensures response.Some? ==> Exclusive(t)
  {
    match response
    case None => s
    case Some((likes, dislikes)) => Reactions(!s.isLiked, false, likes, dislikes)
  }

  /** `handleDislike` with a post id: the mirror image of `ApiLike`. */
  function ApiDislike(s: Reactions, response: Counts): (t: Reactions)
    ensures response.None? ==> t == s
    ensures response.Some? ==> t == Reactions(false, !s.isDisliked, response.value.0, response.value.1)
    ensures response.Some? ==> Exclusive(t)
  {
    match response
    case None => s
    case Some((likes, dislikes)) => Reactions(false, !s.isDisliked, likes, dislikes)
  }

  /** Every action of the row: local or with the server, like or dislike. */
  datatype Action = Like | Dislike | LikeVia(likeResponse: Counts) | DislikeVia(dislikeResponse: Counts)

  function Step(s: Reactions, a: Action): (t: Reactions)
    ensures Exclusive(s) ==> Exclusive(t)
  {
    match a
    case Like => LocalLike(s)
    case Dislike => LocalDislike(s)
    case LikeVia(r) => ApiLike(s, r)
    case DislikeVia(r) => ApiDislike(s, r)
  }

  /** Replaying a sequence of actions from the initial state never sets both flags. */
  function Run(s: Reactions, actions: seq<Action>): (t: Reactions)
    ensures Exclusive(s) ==> Exclusive(t)
    decreases |actions|
  {
    if actions == [] then s else Run(Step(s, actions[0]), actions[1..])
  }

  lemma {:induction false} ExclusiveAlways(likes: int, dislikes: int, actions: seq<Action>)
    ensures Exclusive(Run(Initial(likes, dislikes), actions))
  {
  }

  /** Without a post id (the case of every reply row), the counts shown always agree with the
      comment's counts plus the viewer's own reaction. */
  lemma {:induction false} LocalRunCountsAgree(s: Reactions, baseLikes: int, baseDislikes: int, actions: seq<Action>)
    requires Exclusive(s) && CountsAgree(s, baseLikes, baseDislikes)
    requires forall i :: 0 <= i < |actions| ==> actions[i] == Like || actions[i] == Dislike
    ensures CountsAgree(Run(s, actions), baseLikes, baseDislikes)
    decreases |actions|
  {
    if actions != [] {
      LocalActionsKeepCounts(s, baseLikes, baseDislikes);
      LocalRunCountsAgree(Step(s, actions[0]), baseLikes, baseDislikes, actions[1..]);
    }
  }

  /** The nesting depth below which the reply button is offered. */
  const MaxDepth := 3

  /** `canReply`: the button is offered on a top-level comment (depth 0) and on the two reply
      levels below it, never deeper. */
  function CanReply(depth: nat): (b: bool)
    ensures b <==> depth in {0, 1, 2}
  {
    depth < MaxDepth
  }

  // ---------------------------------------------------------------- initials

  /** The position of the first white-space character, or |s|. */
  function FirstSpace(s: string): (k: nat)
    ensures k <= |s|
    ensures forall i :: 0 <= i < k ==> !IsSpace(s[i])
    ensures k < |s| ==> IsSpace(s[k])
  {
    if s == [] || IsSpace(s[0]) then 0 else 1 + FirstSpace(s[1..])
  }

  /** `s.split(/\s+/)`: the pieces between maximal runs of white space. */
  function SplitSpace(s: string): (parts: seq<string>)
    ensures |parts| >= 1
    ensures forall i, j :: 0 <= i < |parts| && 0 <= j < |parts[i]| ==> !IsSpace(parts[i][j])
    ensures parts[0] == s[..FirstSpace(s)]
    ensures |parts| == 1 <==> FirstSpace(s) == |s|
    decreases |s|
  {
    var k := FirstSpace(s);
    if k == |s| then [s]
    else
      var j := k + LeadingSpace(s[k..]);
      [s[..k]] + SplitSpace(s[j..])
  }

  /** `getInitials`: the first character of the first piece of the trimmed name, and of the
      second piece when there is more than one. */
  function Initials(name: string): (r: string)
    ensures |r| <= 2
    ensures r == [] <==> IsBlank(name)
    ensures r != [] ==> r[0] == Trim(name)[0]
    ensures |r| == 2 <==> exists i :: 0 <= i < |Trim(name)| && IsSpace(Trim(name)[i])
    ensures |r| == 2 ==>
      var t := Trim(name);
      var j := FirstSpace(t) + LeadingSpace(t[FirstSpace(t)..]);
      j < |t| && r[1] == t[j]
    ensures forall i :: 0 <= i < |r| ==> !IsSpace(r[i])
  {
    var t := Trim(name);
    var parts := SplitSpace(t);
    if |parts| == 1 then parts[0][..if |parts[0]| > 0 then 1 else 0]
    else TwoInitials(t)
  }

  /** The two-piece case of `getInitials` on a trimmed name: the first characters of the first
      and the second piece. */
  function TwoInitials(t: string): (r: string)
    requires t == [] || (!IsSpace(t[0]) && !IsSpace(t[|t| - 1]))
    requires FirstSpace(t) < |t|
    ensures |r| == 2 && r[0] == t[0] && !IsSpace(r[0]) && !IsSpace(r[1])
    ensures var j := FirstSpace(t) + LeadingSpace(t[FirstSpace(t)..]); j < |t| && r[1] == t[j]
  {
    var parts := SplitSpace(t);
    SecondPieceNonEmpty(t);
    var j := FirstSpace(t) + LeadingSpace(t[FirstSpace(t)..]);
    PieceStart(t[j..]);
    parts[0][..1] + parts[1][..1]
  }

  /** A string that does not start with white space starts its first piece. */
  lemma PieceStart(s: string)
    requires s != [] && !IsSpace(s[0])
    ensures |SplitSpace(s)[0]| > 0 && SplitSpace(s)[0][0] == s[0]
  {
  }

  /** In a trimmed string with a space, the first two pieces are non-empty, and the second
      starts right after the first run of white space. */
  lemma SecondPieceNonEmpty(t: string)
    requires t == [] || (!IsSpace(t[0]) && !IsSpace(t[|t| - 1]))
    requires FirstSpace(t) < |t|
    ensures |SplitSpace(t)| >= 2 && |SplitSpace(t)[0]| > 0 && |SplitSpace(t)[1]| > 0
    ensures FirstSpace(t) + LeadingSpace(t[FirstSpace(t)..]) < |t|
    ensures SplitSpace(t)[1] == SplitSpace(t[FirstSpace(t) + LeadingSpace(t[FirstSpace(t)..])..])[0]
  {
    var k := FirstSpace(t);
    var rest := t[k..];
    var j := k + LeadingSpace(rest);
    assert j < |t| by {
      if j == |t| {
        assert !IsSpace(rest[|rest| - 1]);
      }
    }
    assert !IsSpace(t[j]);
    assert SplitSpace(t)[1] == SplitSpace(t[j..])[0];
    assert FirstSpace(t[j..]) > 0;
  }

  // ---------------------------------------------------------------- relative time

  const HourMs := 1000 * 60 * 60

  /** The label of a comment's age. */
  datatype Age = JustNow | HoursAgo(hours: int) | DaysAgo(days: int) | CalendarDate

  /** `formatTime`: the elapsed milliseconds floored to hours; under one hour is "now", under
      a day is hours, under a week is days, otherwise a calendar date. */
  function CommentAge(elapsedMs: int): (a: Age)
    ensures a.JustNow? <==> elapsedMs < HourMs
    ensures a.HoursAgo? ==> 1 <= a.hours < 24 && a.hours * HourMs <= elapsedMs < (a.hours + 1) * HourMs
    ensures a.DaysAgo? ==> 1 <= a.days < 7 && a.days * 24 * HourMs <= elapsedMs < (a.days + 1) * 24 * HourMs
    ensures a.CalendarDate? <==> elapsedMs >= 7 * 24 * HourMs
  {
    var hours := elapsedMs / HourMs;
    if hours < 1 then JustNow
    else if hours < 24 then HoursAgo(hours)
    else
      var days := hours / 24;
      if days < 7 then DaysAgo(days) else CalendarDate
  }
}

=== FILE: error_handler.dfy ===
/** The boundary translator of backend/src/middleware/errorHandler.js: every error a handler
    passes on becomes an HTTP status and a JSON `error` message. */
module ErrorHandler {
  import opened Base

  const EmailTaken := "البريد الإلكتروني مستخدم بالفعل"
  const UsernameTaken := "اسم المستخدم مستخدم بالفعل"
  const InvalidToken := "رمز غير صالح"
  const ServerError := "حدث خطأ في الخادم"

  /** MongoDB's duplicate-key error code. */
  const DuplicateKeyCode := 11000

  /** The fields of a thrown error that the translator reads.
      `keyPattern` lists the keys of `err.keyPattern` in order, `fieldMessages` the messages of
      `err.errors` in order; `status` and `message` are absent (None) or JavaScript values. */
  datatype Error = Error(
    code: Option<int>,
    keyPattern: seq<string>,
    name: string,
    fieldMessages: seq<string>,
    status: Option<int>,
    message: string)

  /** The response: a status code and the `error` field (None when it is `undefined`). */
  datatype Response = Response(status: int, error: Option<string>)

  /** A unique-index violation on the given keys, as the database driver reports it. */
  function DuplicateKey(keys: seq<string>): Error {
    Error(Some(DuplicateKeyCode), keys, "MongoServerError", [], None, "E11000 duplicate key error")
  }

  /** A schema validation failure with the per-field messages in order. */
  function ValidationFailure(messages: seq<string>): Error {
    Error(None, [], "ValidationError", messages, None, "Validation failed")
  }

  predicate IsDuplicateKey(e: Error) { e.code == Some(DuplicateKeyCode) }
  predicate IsValidation(e: Error) { !IsDuplicateKey(e) && e.name == "ValidationError" }
  predicate IsBadToken(e: Error) { !IsDuplicateKey(e) && !IsValidation(e) && e.name == "JsonWebTokenError" }

  /** `errorHandler`: the checks apply in order duplicate key, validation, token, and finally
      the error's own status (or 500) and message (or a generic one). */
  function Classify(e: Error): (r: Response)
    ensures IsDuplicateKey(e) ==> r.status == 400 && r.error.Some?
    ensures IsDuplicateKey(e) ==>
      (r.error == Some(EmailTaken) <==> |e.keyPattern| > 0 && e.keyPattern[0] == "email")
    ensures IsDuplicateKey(e) && !(|e.keyPattern| > 0 && e.keyPattern[0] == "email") ==>
      r.error == Some(UsernameTaken)
    ensures IsValidation(e) ==> r.status == 400
    ensures IsValidation(e) && |e.fieldMessages| > 0 ==> r.error == Some(e.fieldMessages[0])
    ensures IsValidation(e) && |e.fieldMessages| == 0 ==> r.error == None
    ensures IsBadToken(e) ==> r == Response(401, Some(InvalidToken))
    ensures !IsDuplicateKey(e) && !IsValidation(e) && !IsBadToken(e) ==>
      && r.status == (if e.status.Some? && e.status.value != 0 then e.status.value else 500)
      && r.error == Some(if e.message != "" then e.message else ServerError)
  {
    if e.code == Some(DuplicateKeyCode) then
      var field := if |e.keyPattern| > 0 then Some(e.keyPattern[0]) else None;
      Response(400, Some(if field == Some("email") then EmailTaken else UsernameTaken))
    else if e.name == "ValidationError" then
      Response(400, if |e.fieldMessages| > 0 then Some(e.fieldMessages[0]) else None)
    else if e.name == "JsonWebTokenError" then
      Response(401, Some(InvalidToken))
    else
      Response(
        if e.status.Some? && e.status.value != 0 then e.status.value else 500,
        Some(if e.message != "" then e.message else ServerError))
  }

  /** The response as a handler's failure outcome. */
  function AsFailure<T>(e: Error): (r: Result<T>)
    ensures r.Fail? && r.status == Classify(e).status && r.error == Classify(e).error
  {
    var resp := Classify(e);
    Fail(resp.status, resp.error)
  }

  /** A duplicate-key error is classified by its key alone, whatever else it carries:
      the validation and token branches are never reached for it. */
  lemma DuplicateKeyFirst(e: Error)
    requires IsDuplicateKey(e)
    ensures Classify(e) == Classify(DuplicateKey(e.keyPattern))
  {
  }

  /** Every classified error is a client error (400/401) unless it brings its own status,
      in which case that status (or 500 for a missing or zero one) is used. */
  lemma StatusTaxonomy(e: Error)
    ensures Classify(e).status in {400, 401, 500} || (e.status.Some? && Classify(e).status == e.status.value)
  {
  }
}

=== FILE: feed_cache.dfy ===
/** The cached feed of frontend/src/pages/Index.tsx: the optimistic create with its confirmation
    and rollback, and the delete and edit updates. The cache entry may be unset, which every
    updater reads as the empty list. */
module FeedCache {
  import opened Base
  import opened Text
  import opened Seqs

  /** A feed post as the client caches it. */
  datatype FeedPost = FeedPost(
    id: string,
    authorId: string,
    content: string,
    image: Option<string>,
    likes: int,
    comments: int,
    reposts: int,
    createdAt: int,
    isLiked: Option<bool>)

  /** The `["posts"]` cache entry. */
  type Cache = Option<seq<FeedPost>>

  const TempPrefix := "temp-"

  predicate IsTemp(p: FeedPost) {
    StartsWith(p.id, TempPrefix)
  }

  /** The filter that drops placeholders. */
  function NonTemp(): FeedPost -> bool {
    p => !IsTemp(p)
  }

  /** The filter that drops the posts with the id. */
  function OtherThan(postId: string): FeedPost -> bool {
    (p: FeedPost) => p.id != postId
  }

  /** The placeholder shown while a create is in flight; `now` is the clock in milliseconds. */
  function Placeholder(content: string, image: Option<string>, authorId: string, now: nat): (p: FeedPost)
    ensures IsTemp(p)
    ensures p.content == content && p.image == image && p.authorId == authorId
    ensures p.likes == 0 && p.comments == 0 && p.reposts == 0 && p.isLiked == Some(false)
  {
    var id := TempPrefix + DecimalString(now);
    assert id[..|TempPrefix|] == TempPrefix;
    FeedPost(id, authorId, content, image, 0, 0, 0, now, Some(false))
  }

  /** `onMutate`: the placeholder goes in front of the cached list; the previous entry is the
      snapshot returned for a rollback. */
  function OptimisticCreate(cache: Cache, content: string, image: Option<string>, authorId: string, now: nat)
    : (r: (Cache, Cache))
    ensures r.1 == cache
    ensures r.0.Some? && |r.0.value| == |cache.GetOr([])| + 1
    ensures r.0.value[0] == Placeholder(content, image, authorId, now)
    ensures r.0.value[1..] == cache.GetOr([])
  {
    (Some([Placeholder(content, image, authorId, now)] + cache.GetOr([])), cache)
  }

  /** `onSuccess`: every placeholder is dropped and the server's post goes in front. */
  function ConfirmCreate(cache: Cache, created: FeedPost): (r: Cache)
    ensures r.Some? && |r.value| >= 1 && r.value[0] == created
    ensures forall i :: 1 <= i < |r.value| ==> !IsTemp(r.value[i])
    ensures forall p :: !IsTemp(p) ==> multiset(r.value[1..])[p] == multiset(cache.GetOr([]))[p]
  {
    var kept := Filter(cache.GetOr([]), NonTemp());
    forall p ensures multiset(kept)[p] == if !IsTemp(p) then multiset(cache.GetOr([]))[p] else 0 {
      FilterCount(cache.GetOr([]), NonTemp(), p);
    }
    assert ([created] + kept)[1..] == kept;
    Some([created] + kept)
  }

  /** `setQueryData` with a plain value: an undefined value is ignored and leaves the entry as it is. */
  function SetQueryData(cache: Cache, value: Cache): (r: Cache)
    ensures value.Some? ==> r == value
    ensures value.None? ==> r == cache
  {
    if value.None? then cache else value
  }

  /** `handleNewPost` with the outcome of the request: a logged-out viewer issues no mutation and
      the cache is untouched; a failed request restores the snapshot, except that an unset entry
      cannot be restored, so the placeholder stays; a successful one leaves the server's post in
      front of the non-placeholder posts. */
  function NewPost(cache: Cache, loggedIn: bool, content: string, image: Option<string>, authorId: string,
                   now: nat, outcome: Option<FeedPost>): (r: Cache)
    ensures !loggedIn ==> r == cache
    ensures loggedIn && outcome.None? && cache.Some? ==> r == cache
    ensures loggedIn && outcome.None? && cache.None? ==> r == Some([Placeholder(content, image, authorId, now)])
    ensures loggedIn && outcome.Some? ==>
      r == Some([outcome.value] + Filter(cache.GetOr([]), NonTemp()))
  {
    if !loggedIn then cache
    else
      var (optimistic, snapshot) := OptimisticCreate(cache, content, image, authorId, now);
      match outcome
      case None =>
        assert cache.None? ==> optimistic == Some([Placeholder(content, image, authorId, now)]) by {
          if cache.None? {
            assert optimistic.value == [Placeholder(content, image, authorId, now)] + [];
            assert [Placeholder(content, image, authorId, now)] + [] == [Placeholder(content, image, authorId, now)];
          }
        }
        SetQueryData(optimistic, snapshot)
      case Some(created) =>
        PlaceholderDropped(cache, content, image, authorId, now, created);
        ConfirmCreate(optimistic, created)
  }

  /** Confirming right after the optimistic insert drops its placeholder again. */
  lemma PlaceholderDropped(cache: Cache, content: string, image: Option<string>, authorId: string, now: nat,
                           created: FeedPost)
    ensures ConfirmCreate(OptimisticCreate(cache, content, image, authorId, now).0, created)
         == Some([created] + Filter(cache.GetOr([]), NonTemp()))
  {
    var keep := NonTemp();
    var placeholder := Placeholder(content, image, authorId, now);
    FilterCons(placeholder, cache.GetOr([]), keep);
  }

  /** `handleDeletePost`: after a successful request, exactly the posts with the id are gone and
      the rest keep their order; a failed request changes nothing. */
  function DeletePost(cache: Cache, postId: string, ok: bool): (r: Cache)
    ensures !ok ==> r == cache
    ensures ok ==> r.Some? && forall i :: 0 <= i < |r.value| ==> r.value[i].id != postId
    ensures ok ==> forall p: FeedPost :: p.id != postId ==> multiset(r.value)[p] == multiset(cache.GetOr([]))[p]
  {
    if ok then
      var kept := Filter(cache.GetOr([]), OtherThan(postId));
      forall p: FeedPost ensures multiset(kept)[p] == if p.id != postId then multiset(cache.GetOr([]))[p] else 0 {
        FilterCount(cache.GetOr([]), OtherThan(postId), p);
      }
      Some(kept)
    else cache
  }

  /** Deleting keeps the relative order of the remaining posts: deleting from a concatenation is
      the concatenation of the deletions. */
  lemma DeletePostOrder(a: seq<FeedPost>, b: seq<FeedPost>, postId: string)
    ensures DeletePost(Some(a + b), postId, true).value
         == DeletePost(Some(a), postId, true).value + DeletePost(Some(b), postId, true).value
  {
    FilterConcat(a, b, OtherThan(postId));
  }

  /** `handleEditPost`: after a successful request, every post with the id is replaced by the
      server's version and every other post is unchanged; a failed request changes nothing. */
  function EditPost(cache: Cache, postId: string, response: Option<FeedPost>): (r: Cache)
    ensures response.None? ==> r == cache
    ensures response.Some? ==> r.Some? && |r.value| == |cache.GetOr([])|
    ensures response.Some? ==> forall i :: 0 <= i < |r.value| ==>
      r.value[i] == (if cache.GetOr([])[i].id == postId then response.value else cache.GetOr([])[i])
  {
    match response
    case None => cache
    case Some(updated) =>
      var prev := cache.GetOr([]);
      Some(seq(|prev|, i requires 0 <= i < |prev| => if prev[i].id == postId then updated else prev[i]))
  }

  /** An edit keeps every post's place: when the server's version carries the edited id, the
      ids of the cached posts are the same before and after, in the same order. */
  lemma EditPostKeepsIds(cache: Cache, postId: string, updated: FeedPost)
    requires updated.id == postId
    ensures var r := EditPost(cache, postId, Some(updated)).value;
      |r| == |cache.GetOr([])| && forall i :: 0 <= i < |r| ==> r[i].id == cache.GetOr([])[i].id
  {
  }

  /** Editing an id that is not in the cache leaves every cached post as it was (an unset
      cache reads as the empty list). */
  lemma EditPostAbsent(cache: Cache, postId: string, updated: FeedPost)
    requires forall i :: 0 <= i < |cache.GetOr([])| ==> cache.GetOr([])[i].id != postId
    ensures EditPost(cache, postId, Some(updated)) == Some(cache.GetOr([]))
  {
    var r := EditPost(cache, postId, Some(updated)).value;
    assert r == cache.GetOr([]);
  }
}

=== FILE: like_sync.dfy ===
/** How the card's like button tracks the server. The card flips its own flag instead of reading
    the server's `isLiked`, and takes only the count from the response; the two still agree as
    long as the card showed the stored state before the click. */
module LikeSync {
  import opened Base
  import opened Seqs
  import opened PostRoutes
  import PostCard

  /** The card showed the stored liked flag of the post to `caller`. */
  predicate CardAgrees(s: PostCard.CardState, store: Store, id: Id, caller: Id)
    requires id in store
  {
    s.isLiked == (caller in store[id].likes)
  }

  /** After a successful like, a card that agreed with the store shows what the server answered
      and what a fresh read of the post would show: the same count and the same flag. */
  lemma CardFollowsServer(store: Store, id: Id, caller: Id, now: int, s: PostCard.CardState)
    requires id in store && NoDup(store[id].likes) && caller != ""
    requires CardAgrees(s, store, id, caller)
    ensures var r := LikePost(store, id, caller, now);
      r.Ok? ==>
        var t := PostCard.LikePost(s, true, Some(r.value.1.likes));
        && t.isLiked == r.value.1.isLiked
        && t.likes == r.value.1.likes
        && Some(t.isLiked) == Project(r.value.0[id], Some(caller)).isLiked
        && t.likes == Project(r.value.0[id], Some(caller)).likes
  {
    LikeResponseMatchesView(store, id, caller, now);
  }
}

=== FILE: post_card.dfy ===
/** The post card of frontend/src/components/post/PostCard.tsx: the client's comment tree, its
    three orderings, recursive reply insertion, link normalisation, the relative-time label,
    content truncation and the like/repost counters. */
module PostCard {
  import opened Base
  import opened Text
  import opened Seqs

  /** A comment as the client holds it: counts rather than id lists, and replies of its own.
      `hasReplies` says whether the optional `replies` field is present; when it is absent,
      `replies` is empty. */
  datatype ClientComment = ClientComment(
    id: string,
    authorId: string,
    content: string,
    createdAt: int,
    likes: int,
    dislikes: int,
    hasReplies: bool,
    replies: seq<ClientComment>,
    parentId: Option<string>)

  // ---------------------------------------------------------------- sorting

  datatype SortMode = Best | Newest | Oldest

  /** The comparator of `sortedComments` as a rank: the comparator `(a, b)` is `Rank(a) - Rank(b)`,
      so a smaller rank comes first. Best puts the higher score (likes minus dislikes) first,
      newest the later creation time, oldest the earlier one. */
  function Rank(mode: SortMode, c: ClientComment): (k: int)
    ensures mode == Best ==> k == c.dislikes - c.likes
    ensures mode == Newest ==> k == -c.createdAt
    ensures mode == Oldest ==> k == c.createdAt
  {
    match mode
    case Best => -(c.likes - c.dislikes)
    case Newest => -c.createdAt
    case Oldest => c.createdAt
  }

  predicate SortedBy(mode: SortMode, s: seq<ClientComment>) {
    forall i, j :: 0 <= i < j < |s| ==> Rank(mode, s[i]) <= Rank(mode, s[j])
  }

  /** Place `x` before the first element whose rank is not below its own. */
  function Insert(mode: SortMode, x: ClientComment, s: seq<ClientComment>): (r: seq<ClientComment>)
    ensures multiset(r) == multiset(s) + multiset{x}
    ensures |r| == |s| + 1
    ensures r[0] == x || (s != [] && r[0] == s[0])
  {
    if s == [] then [x]
    else if Rank(mode, x) <= Rank(mode, s[0]) then [x] + s
    else
      assert s == [s[0]] + s[1..];
      [s[0]] + Insert(mode, x, s[1..])
  }

  /** Insertion keeps a sorted list sorted. */
  lemma {:induction false} InsertSorted(mode: SortMode, x: ClientComment, s: seq<ClientComment>)
    requires SortedBy(mode, s)
    ensures SortedBy(mode, Insert(mode, x, s))
  {
    if s != [] && Rank(mode, x) > Rank(mode, s[0]) {
      var rest := Insert(mode, x, s[1..]);
      InsertSorted(mode, x, s[1..]);
      assert Rank(mode, s[0]) <= Rank(mode, rest[0]);
      assert Insert(mode, x, s) == [s[0]] + rest;
    }
  }

  /** `[...comments].sort(compare)`: a sorted copy; `Array.prototype.sort` is stable. */
  function Sort(mode: SortMode, s: seq<ClientComment>): (r: seq<ClientComment>)
    ensures multiset(r) == multiset(s)
    ensures |r| == |s|
    ensures SortedBy(mode, r)
  {
    if s == [] then []
    else
      assert s == [s[0]] + s[1..];
      InsertSorted(mode, s[0], Sort(mode, s[1..]));
      Insert(mode, s[0], Sort(mode, s[1..]))
  }

  /** The comments of one rank, in order. */
  function OfRank(mode: SortMode, k: int, s: seq<ClientComment>): seq<ClientComment> {
    Filter(s, HasRank(mode, k))
  }

  function HasRank(mode: SortMode, k: int): ClientComment -> bool {
    c => Rank(mode, c) == k
  }

  /** Inserting `x` whose rank is at most `k` puts it ahead of every element of rank `k`. */
  lemma {:induction false} InsertOfRank(mode: SortMode, x: ClientComment, s: seq<ClientComment>, k: int)
    requires Rank(mode, x) <= k
    ensures OfRank(mode, k, Insert(mode, x, s)) == (if Rank(mode, x) == k then [x] else []) + OfRank(mode, k, s)
  {
    var keep := HasRank(mode, k);
    if s == [] {
      FilterCons(x, [], keep);
      assert [x] + [] == [x];
    } else if Rank(mode, x) <= Rank(mode, s[0]) {
      FilterCons(x, s, keep);
    } else {
      var rest := Insert(mode, x, s[1..]);
      InsertOfRank(mode, x, s[1..], k);
      FilterCons(s[0], rest, keep);
      FilterCons(s[0], s[1..], keep);
      assert [s[0]] + s[1..] == s;
    }
  }

  /** Inserting `x` whose rank is above `k` leaves the elements of rank `k` alone. */
  lemma {:induction false} InsertAboveRank(mode: SortMode, x: ClientComment, t: seq<ClientComment>, k: int)
    requires Rank(mode, x) > k
    ensures OfRank(mode, k, Insert(mode, x, t)) == OfRank(mode, k, t)
  {
    var keep := HasRank(mode, k);
    if t == [] {
      FilterCons(x, [], keep);
      assert [x] + [] == [x];
    } else if Rank(mode, x) <= Rank(mode, t[0]) {
      FilterCons(x, t, keep);
    } else {
      InsertAboveRank(mode, x, t[1..], k);
      FilterCons(t[0], Insert(mode, x, t[1..]), keep);
      FilterCons(t[0], t[1..], keep);
      assert [t[0]] + t[1..] == t;
    }
  }

  /** Sorting is stable: the comments of every rank keep their relative order. */
  lemma {:induction false} SortStable(mode: SortMode, s: seq<ClientComment>, k: int)
    ensures OfRank(mode, k, Sort(mode, s)) == OfRank(mode, k, s)
  {
    var keep := HasRank(mode, k);
    if s != [] {
      var t := Sort(mode, s[1..]);
      SortStable(mode, s[1..], k);
      if Rank(mode, s[0]) > k {
        InsertAboveRank(mode, s[0], t, k);
      } else {
        InsertOfRank(mode, s[0], t, k);
      }
      FilterCons(s[0], s[1..], keep);
      assert [s[0]] + s[1..] == s;
    }
  }

  // ---------------------------------------------------------------- reply insertion

  /** The number of comments in a forest, counting every level. */
  function Size(l: seq<ClientComment>): nat {
    if l == [] then 0 else 1 + Size(l[0].replies) + Size(l[1..])
  }

  /** Whether a comment with the id occurs anywhere in the forest, looking only into present
      `replies` fields. */
  predicate Contains(l: seq<ClientComment>, id: string) {
    l != [] && (l[0].id == id || (l[0].hasReplies && Contains(l[0].replies, id)) || Contains(l[1..], id))
  }

  /** `addReplyToComment`: every comment with the parent id gets the reply appended to its
      replies (which are not searched further); every other comment that has a `replies` field
      is searched recursively; the rest is left alone. */
  function AddReply(l: seq<ClientComment>, parentId: string, reply: ClientComment): (r: seq<ClientComment>)
    ensures |r| == |l|
    ensures forall i :: 0 <= i < |l| ==> r[i].(replies := l[i].replies, hasReplies := l[i].hasReplies) == l[i]
    ensures forall i :: 0 <= i < |l| && l[i].id == parentId ==> r[i].hasReplies && r[i].replies == l[i].replies + [reply]
    ensures forall i :: 0 <= i < |l| && l[i].id != parentId ==> r[i].hasReplies == l[i].hasReplies
    ensures forall i :: 0 <= i < |l| && l[i].id != parentId ==> |r[i].replies| == |l[i].replies|
    ensures forall i :: 0 <= i < |l| && l[i].id != parentId ==>
      r[i].replies == if l[i].hasReplies then AddReply(l[i].replies, parentId, reply) else l[i].replies
  {
    if l == [] then []
    else
      var c := l[0];
      var c' := if c.id == parentId then c.(hasReplies := true, replies := c.replies + [reply])
                else if c.hasReplies then c.(replies := AddReply(c.replies, parentId, reply))
                else c;
      [c'] + AddReply(l[1..], parentId, reply)
  }

  /** A parent id that occurs nowhere leaves the forest unchanged. */
  lemma {:induction false} AddReplyNoMatch(l: seq<ClientComment>, parentId: string, reply: ClientComment)
    requires !Contains(l, parentId)
    ensures AddReply(l, parentId, reply) == l
  {
    if l != [] {
      if l[0].hasReplies {
        AddReplyNoMatch(l[0].replies, parentId, reply);
      }
      AddReplyNoMatch(l[1..], parentId, reply);
      assert l == [l[0]] + l[1..];
    }
  }

  /** The forest grows exactly when the parent id occurs in it, and never shrinks. */
  lemma {:induction false} AddReplyGrows(l: seq<ClientComment>, parentId: string, reply: ClientComment)
    ensures Size(AddReply(l, parentId, reply)) >= Size(l)
    ensures Size(AddReply(l, parentId, reply)) > Size(l) <==> Contains(l, parentId)
  {
    if l != [] {
      var r := AddReply(l, parentId, reply);
      var c := l[0];
      AddReplyGrows(l[1..], parentId, reply);
      assert r[1..] == AddReply(l[1..], parentId, reply);
      if c.id == parentId {
        SizeAppend(c.replies, reply);
      } else if c.hasReplies {
        AddReplyGrows(c.replies, parentId, reply);
      }
    }
  }

  lemma {:induction false} SizeAppend(l: seq<ClientComment>, x: ClientComment)
    ensures Size(l + [x]) == Size(l) + 1 + Size(x.replies)
  {
    if l == [] {
      assert [x][1..] == [];
    } else {
      assert (l + [x])[1..] == l[1..] + [x];
      SizeAppend(l[1..], x);
    }
  }

  // ---------------------------------------------------------------- links, time, content

  /** `handleExternalLink`: a URL not starting with "http" gets the "https://" scheme. */
  function ExternalHref(url: string): (href: string)
    ensures StartsWith(href, "http")
    ensures href == url <==> StartsWith(url, "http")
    ensures !StartsWith(url, "http") ==> href == "https://" + url
  {
    if StartsWith(url, "http") then url else "https://" + url
  }

  /** Normalising a normalised link changes nothing. */
  lemma ExternalHrefIdempotent(url: string)
    ensures ExternalHref(ExternalHref(url)) == ExternalHref(url)
  {
  }

  const MinuteMs := 1000 * 60
  const HourMs := 1000 * 60 * 60
  const DayMs := 1000 * 60 * 60 * 24

  /** The label of a post's age; a calendar date shows the year beyond 365 days. */
  datatype Age = JustNow | MinutesAgo(minutes: int) | HoursAgo(hours: int) | DaysAgo(days: int)
               | CalendarDate(showYear: bool)

  /** `formatTime`: elapsed milliseconds floored to minutes, hours and days (a negative age
      counts as now). */
  function PostAge(elapsedMs: int): (a: Age)
    ensures a.JustNow? <==> elapsedMs < MinuteMs
    ensures a.MinutesAgo? ==> 1 <= a.minutes < 60 && a.minutes * MinuteMs <= elapsedMs < (a.minutes + 1) * MinuteMs
    ensures a.HoursAgo? ==> 1 <= a.hours < 24 && a.hours * HourMs <= elapsedMs < (a.hours + 1) * HourMs
    ensures a.DaysAgo? ==> 1 <= a.days < 7 && a.days * DayMs <= elapsedMs < (a.days + 1) * DayMs
    ensures a.CalendarDate? <==> elapsedMs >= 7 * DayMs
    ensures a.CalendarDate? ==> (a.showYear <==> elapsedMs >= 366 * DayMs)
  {
    var minutes := elapsedMs / MinuteMs;
    var hours := elapsedMs / HourMs;
    var days := elapsedMs / DayMs;
    if minutes < 1 then JustNow
    else if minutes < 60 then MinutesAgo(minutes)
    else if hours < 24 then HoursAgo(hours)
    else if days < 7 then DaysAgo(days)
    else CalendarDate(days > 365)
  }

  /** The number of characters shown before "read more". */
  const PreviewLength := 250

  /** The shown content and whether the "read more" marker follows it. */
  function Shown(content: string, showFullContent: bool): (r: (string, bool))
    ensures !r.1 <==> (showFullContent || |content| <= PreviewLength)
    ensures !r.1 ==> r.0 == content
    ensures r.1 ==> |r.0| == PreviewLength && r.0 == content[..PreviewLength] && r.0 < content
  {
    if showFullContent || |content| <= PreviewLength then (content, false)
    else (content[..PreviewLength], true)
  }

  // ---------------------------------------------------------------- counters

  /** The card's engagement state. */
  datatype CardState = CardState(isLiked: bool, likes: int, isReposted: bool, reposts: int,
                                 comments: seq<ClientComment>, commentsCount: int)

  /** `handleRepost`: a logged-out viewer changes nothing; otherwise the flag flips and the
      count moves by one in the matching direction. */
  function Repost(s: CardState, loggedIn: bool): (t: CardState)
    ensures !loggedIn ==> t == s
    ensures loggedIn ==> t.isReposted == !s.isReposted
    ensures loggedIn ==> t.reposts - s.reposts == (if t.isReposted then 1 else -1)
    ensures t.(isReposted := s.isReposted, reposts := s.reposts) == s
  {
    if !loggedIn then s
    else s.(isReposted := !s.isReposted, reposts := if s.isReposted then s.reposts - 1 else s.reposts + 1)
  }

  /** Two reposts by a logged-in viewer cancel out. */
  lemma RepostTwice(s: CardState)
    ensures Repost(Repost(s, true), true) == s
  {
  }

  /** `handleLike`: a logged-out viewer or a failed request changes nothing; otherwise the flag
      flips and the count is the one the server answered. */
  function LikePost(s: CardState, loggedIn: bool, response: Option<int>): (t: CardState)
    ensures !loggedIn || response.None? ==> t == s
    ensures loggedIn && response.Some? ==> t == s.(isLiked := !s.isLiked, likes := response.value)
  {
    if loggedIn && response.Some? then s.(isLiked := !s.isLiked, likes := response.value) else s
  }

  /** `handleAddComment`: a blank draft does nothing; otherwise the comment the server returned
      is appended with zero counts and without replies, and the counter grows by one (a failed
      request changes nothing). */
  function AddComment(s: CardState, draft: string, response: Option<ClientComment>): (t: CardState)
    ensures IsBlank(draft) || response.None? ==> t == s
    ensures !IsBlank(draft) && response.Some? ==>
      && |t.comments| == |s.comments| + 1
      && t.comments[..|s.comments|] == s.comments
      && t.comments[|s.comments|]
         == response.value.(likes := 0, dislikes := 0, hasReplies := false, replies := [], parentId := None)
      && t.commentsCount == s.commentsCount + 1
  {
    if Trim(draft) == "" || response.None? then s
    else
      var c := response.value.(likes := 0, dislikes := 0, hasReplies := false, replies := [], parentId := None);
      s.(comments := s.comments + [c], commentsCount := s.commentsCount + 1)
  }
}

=== FILE: post_model.dfy ===
/** The Post document of backend/src/models/Post.js: a post owns its comments, a comment owns
    its replies, and a reply has no replies of its own, so stored nesting is two levels by type. */
module PostModel {
  import opened Base
  import opened Text

  /** `maxlength` of a post's content. */
  const MaxContent := 5000

  const ContentRequired := "محتوى المنشور مطلوب"

  /** Mongoose's default maxlength message, which quotes the rejected value. */
  function ContentTooLong(value: string): string {
    "Path `content` (`" + value + "`) is longer than the maximum allowed length (5000)."
  }

  const CommentContentRequired := "Path `content` is required."

  /** A reply: an element of a comment's `replies` list, with its own likes and dislikes. */
  datatype Reply = Reply(
    id: Id,
    author: Id,
    content: string,
    likes: seq<Id>,
    dislikes: seq<Id>,
    createdAt: int)

  /** A top-level comment of a post. */
  datatype Comment = Comment(
    id: Id,
    author: Id,
    content: string,
    likes: seq<Id>,
    dislikes: seq<Id>,
    parentId: Option<string>,
    replies: seq<Reply>,
    createdAt: int)

  datatype Post = Post(
    id: Id,
    author: Id,
    content: string,
    image: string,
    likes: seq<Id>,
    comments: seq<Comment>,
    reposts: seq<Id>,
    createdAt: int,
    updatedAt: int)

  /** A new post document: the `trim` setter applies to content, image defaults to '',
      engagement lists start empty and both timestamps are the creation time. */
  function NewPost(id: Id, author: Id, content: string, image: Option<string>, now: int): (p: Post)
    ensures p.id == id && p.author == author
    ensures p.content == Trim(content)
    ensures image.None? ==> p.image == ""
    ensures image.Some? ==> p.image == image.value
    ensures p.likes == [] && p.comments == [] && p.reposts == []
    ensures p.createdAt == now && p.updatedAt == now
  {
    Post(id, author, Trim(content), image.GetOr(""), [], [], [], now, now)
  }

  /** A new comment element: trimmed content, no reactions, `parentId` null, no replies. */
  function NewComment(id: Id, author: Id, content: string, now: int): (c: Comment)
    ensures c.id == id && c.author == author && c.content == Trim(content)
    ensures c.likes == [] && c.dislikes == [] && c.replies == []
    ensures c.parentId.None? && c.createdAt == now
  {
    Comment(id, author, Trim(content), [], [], None, [], now)
  }

  /** A new reply element: trimmed content and no reactions. */
  function NewReply(id: Id, author: Id, content: string, now: int): (r: Reply)
    ensures r.id == id && r.author == author && r.content == Trim(content)
    ensures r.likes == [] && r.dislikes == [] && r.createdAt == now
  {
    Reply(id, author, Trim(content), [], [], now)
  }

  /** Schema checks of one post: content required and at most 5000 characters,
      and every comment and reply content required. */
  predicate ValidPost(p: Post) {
    && p.content != ""
    && |p.content| <= MaxContent
    && (forall i :: 0 <= i < |p.comments| ==> ValidComment(p.comments[i]))
  }

  predicate ValidComment(c: Comment) {
    && c.content != ""
    && (forall j :: 0 <= j < |c.replies| ==> c.replies[j].content != "")
  }

  /** The messages of the failed validators, in schema order. */
  function ValidationMessages(p: Post): (ms: seq<string>)
    ensures ms == [] <==> ValidPost(p)
    ensures p.content == "" ==> ms[0] == ContentRequired
    ensures p.content != "" && |p.content| > MaxContent ==> ms[0] == ContentTooLong(p.content)
  {
    (if p.content == "" then [ContentRequired] else [])
    + (if |p.content| > MaxContent then [ContentTooLong(p.content)] else [])
    + (if forall i :: 0 <= i < |p.comments| ==> ValidComment(p.comments[i]) then [] else [CommentContentRequired])
  }

  /** The result of `post.save()`. */
  datatype Saved = Stored(post: Post) | Rejected(messages: seq<string>)

  /** `post.save()`: validation first; on success the pre-save hook sets `updatedAt` to the save time. */
  function Save(p: Post, now: int): (s: Saved)
    ensures s.Stored? <==> ValidPost(p)
    ensures s.Stored? ==> s.post == p.(updatedAt := now)
    ensures s.Rejected? ==> |s.messages| > 0
  {
    var ms := ValidationMessages(p);
    if ms == [] then Stored(p.(updatedAt := now)) else Rejected(ms)
  }

  /** A post created from content that is not blank and at most 5000 characters after trimming is valid. */
  lemma NewPostValid(id: Id, author: Id, content: string, image: Option<string>, now: int)
    requires !IsBlank(content) && |Trim(content)| <= MaxContent
    ensures ValidPost(NewPost(id, author, content, image, now))
  {
  }
}

=== FILE: post_routes.dfy ===
/** The request handlers of backend/src/routes/posts.js, each a load / transform / save step
    over the post collection. Handlers return the new collection with the response body. */
module PostRoutes {
  import opened Base
  import opened Text
  import opened Seqs
  import opened PostModel
  import ErrorHandler

  const PostNotFound := "المنشور غير موجود"
  const EditForbidden := "غير مصرح لك بتعديل هذا المنشور"
  const DeleteForbidden := "غير مصرح لك بحذف هذا المنشور"
  const CommentRequired := "محتوى التعليق مطلوب"
  const ReplyRequired := "محتوى الرد مطلوب"
  const CommentNotFound := "التعليق غير موجود"

  const DefaultPage := 1
  const DefaultLimit := 20

  /** The post collection, keyed by `_id`. */
  type Store = map<Id, Post>

  // ---------------------------------------------------------------- feed

  /** `parseInt(raw) || default`: an unparseable value (None, i.e. NaN) and 0 fall back to the default. */
  function ParamOr(raw: Option<int>, default: int): (v: int)
    ensures raw.Some? && raw.value != 0 ==> v == raw.value
    ensures raw.None? || raw.value == 0 ==> v == default
  {
    if raw.Some? && raw.value != 0 then raw.value else default
  }

  datatype Paging = Paging(page: int, limit: int, skip: int)

  /** The page, page size and number of skipped posts of a feed request. */
  function FeedPaging(rawPage: Option<int>, rawLimit: Option<int>): (p: Paging)
    ensures p.page != 0 && p.limit != 0
    ensures rawPage.None? || rawPage.value == 0 ==> p.page == DefaultPage
    ensures rawLimit.None? || rawLimit.value == 0 ==> p.limit == DefaultLimit
    ensures p.skip == (p.page - 1) * p.limit
  {
    var page := ParamOr(rawPage, DefaultPage);
    var limit := ParamOr(rawLimit, DefaultLimit);
    Paging(page, limit, (page - 1) * limit)
  }

  /** `Math.ceil(a / b)` on integers, for either sign of the divisor. */
  function CeilDiv(a: int, b: int): (q: int)
    requires b != 0
    ensures b > 0 ==> (q - 1) * b < a <= q * b
    ensures b < 0 ==> q * b <= a < (q - 1) * b
  {
    if b > 0 then -((-a) / b) else -(a / (-b))
  }

  datatype PageInfo = PageInfo(page: int, limit: int, total: nat, pages: int, hasMore: bool)

  /** The `pagination` object of the feed response. */
  function Pagination(p: Paging, total: nat): (info: PageInfo)
    requires p.limit != 0
    ensures info.page == p.page && info.limit == p.limit && info.total == total
    ensures p.limit > 0 ==> (info.pages - 1) * p.limit < total <= info.pages * p.limit
    ensures p.limit < 0 ==> info.pages * p.limit <= total < (info.pages - 1) * p.limit
    ensures info.hasMore <==> p.page < info.pages
  {
    var pages := CeilDiv(total, p.limit);
    PageInfo(p.page, p.limit, total, pages, p.page < pages)
  }

  /** With a positive page size, `hasMore` says exactly that posts exist beyond the current page. */
  lemma HasMoreIffPostsRemain(p: Paging, total: nat)
    requires p.limit > 0
    ensures Pagination(p, total).hasMore <==> p.page * p.limit < total
  {
    var pages := Pagination(p, total).pages;
    if p.page < pages {
      assert p.page <= pages - 1;
      MulMono(p.page, pages - 1, p.limit);
    } else {
      assert pages <= p.page;
      MulMono(pages, p.page, p.limit);
    }
  }

  lemma MulMono(a: int, b: int, c: int)
    requires a <= b && c > 0
    ensures a * c <= b * c
  {
  }

  /** The response shape of one post in a list: counts instead of id lists.
      `isLiked` is None where the response omits the field. */
  datatype PostView = PostView(
    id: Id,
    author: Id,
    content: string,
    image: string,
    createdAt: int,
    likes: nat,
    comments: nat,
    reposts: nat,
    isLiked: Option<bool>)

  /** Whether the viewer, when a valid token named one, has liked the post. */
  predicate LikedBy(p: Post, viewer: Option<Id>) {
    Truthy(viewer) && viewer.value in p.likes
  }

  /** The feed projection of a post for a viewer. */
  function Project(p: Post, viewer: Option<Id>): (v: PostView)
    ensures v.id == p.id && v.author == p.author && v.content == p.content && v.image == p.image
    ensures v.createdAt == p.createdAt
    ensures v.likes == |p.likes| && v.comments == |p.comments| && v.reposts == |p.reposts|
    ensures v.isLiked == Some(LikedBy(p, viewer))
    ensures !Truthy(viewer) ==> v.isLiked == Some(false)
  {
    PostView(p.id, p.author, p.content, p.image, p.createdAt,
             |p.likes|, |p.comments|, |p.reposts|, Some(LikedBy(p, viewer)))
  }

  datatype FeedResponse = FeedResponse(posts: seq<PostView>, pagination: PageInfo)

  /** `GET /posts`: `page` is the slice the query returned, `total` the count of all posts. */
  function Feed(page: seq<Post>, total: nat, rawPage: Option<int>, rawLimit: Option<int>, viewer: Option<Id>): (r: FeedResponse)
    ensures |r.posts| == |page|
    ensures forall i :: 0 <= i < |page| ==> r.posts[i] == Project(page[i], viewer)
    ensures r.pagination == Pagination(FeedPaging(rawPage, rawLimit), total)
  {
    FeedResponse(seq(|page|, i requires 0 <= i < |page| => Project(page[i], viewer)),
                 Pagination(FeedPaging(rawPage, rawLimit), total))
  }

  datatype PostDetail = PostDetail(view: PostView, comments: seq<Comment>)

  /** `GET /posts/:id`: the projection with the full comment list. */
  function GetPost(store: Store, id: Id, viewer: Option<Id>): (r: Result<PostDetail>)
    ensures id !in store ==> r == Fail(404, Some(PostNotFound))
    ensures id in store ==> r.Ok? && r.value.comments == store[id].comments
    ensures id in store ==> r.value.view.likes == |store[id].likes| && r.value.view.isLiked == Some(LikedBy(store[id], viewer))
    ensures id in store ==> r.value.view == Project(store[id], viewer)
  {
    if id !in store then Fail(404, Some(PostNotFound))
    else
      var p := store[id];
      Ok(PostDetail(Project(p, viewer), p.comments))
  }

  // ---------------------------------------------------------------- create, update, delete

  /** `!content || content.trim().length === 0`. */
  predicate BlankField(content: Option<string>) {
    !Truthy(content) || IsBlank(content.value)
  }

  /** The projection returned by create and update: counts, and no `isLiked` field. */
  function Summary(p: Post): (v: PostView)
    ensures v == Project(p, None).(isLiked := None)
  {
    PostView(p.id, p.author, p.content, p.image, p.createdAt, |p.likes|, |p.comments|, |p.reposts|, None)
  }

  /** `POST /posts` by `caller`; `newId` is the id the driver assigns. */
  function CreatePost(store: Store, newId: Id, caller: Id, content: Option<string>, image: Option<string>, now: int)
    : (r: Result<(Store, PostView)>)
    requires newId !in store
    ensures BlankField(content) ==> r == Fail(400, Some(ContentRequired))
    ensures !BlankField(content) && |Trim(content.value)| > MaxContent ==> r == Fail(400, Some(ContentTooLong(Trim(content.value))))
    ensures !BlankField(content) && |Trim(content.value)| <= MaxContent ==> r.Ok?
    ensures r.Ok? ==> newId in r.value.0 && r.value.0 == store[newId := r.value.0[newId]]
    ensures r.Ok? ==>
      var p := r.value.0[newId];
      && p.author == caller && p.content == Trim(content.value)
      && p.image == (if Truthy(image) then image.value else "")
      && p.likes == [] && p.comments == [] && p.reposts == []
      && p.createdAt == now && p.updatedAt == now
      && r.value.1 == Summary(p)
  {
    if BlankField(content) then Fail(400, Some(ContentRequired))
    else
      var p := NewPost(newId, caller, Trim(content.value), if Truthy(image) then image else None, now);
      TrimIdempotent(content.value);
      match Save(p, now)
      case Rejected(ms) => ErrorHandler.AsFailure(ErrorHandler.ValidationFailure(ms))
      case Stored(q) => Ok((store[newId := q], Summary(q)))
  }

  /** `PUT /posts/:id` by `caller`: content is replaced (trimmed) only when truthy,
      image only when present. */
  function UpdatePost(store: Store, id: Id, caller: Id, content: Option<string>, image: Option<string>, now: int)
    : (r: Result<(Store, PostView)>)
    ensures id !in store ==> r == Fail(404, Some(PostNotFound))
    ensures id in store && store[id].author != caller ==> r == Fail(403, Some(EditForbidden))
    ensures r.Ok? ==> id in store && id in r.value.0 && r.value.0 == store[id := r.value.0[id]]
    ensures r.Ok? ==>
      var prev := store[id];
      var p := r.value.0[id];
      && prev.author == caller
      && p.content == (if Truthy(content) then Trim(content.value) else prev.content)
      && p.image == (if image.Some? then image.value else prev.image)
      && p.(content := prev.content, image := prev.image, updatedAt := prev.updatedAt) == prev
      && p.updatedAt == now
      && r.value.1 == Summary(p)
    ensures (id in store && store[id].author == caller && ValidPost(store[id]) && !BlankField(content)
             && |Trim(content.value)| <= MaxContent) ==> r.Ok?
    ensures id in store && store[id].author == caller ==>
      var prev := store[id];
      var edited := prev.(content := if Truthy(content) then Trim(content.value) else prev.content,
                          image := if image.Some? then image.value else prev.image);
      && (ValidPost(edited) ==> r.Ok?)
      && (!ValidPost(edited) ==> r == Fail(400, Some(ValidationMessages(edited)[0])))
  {
    if id !in store then Fail(404, Some(PostNotFound))
    else if store[id].author != caller then Fail(403, Some(EditForbidden))
    else
      var prev := store[id];
      var p1 := if Truthy(content) then prev.(content := Trim(content.value)) else prev;
      var p2 := if image.Some? then p1.(image := image.value) else p1;
      match Save(p2, now)
      case Rejected(ms) => ErrorHandler.AsFailure(ErrorHandler.ValidationFailure(ms))
      case Stored(q) => Ok((store[id := q], Summary(q)))
  }

  /** An owner's edit whose content is only white space is truthy, so it replaces the content
      with the empty string, and the `required` validator answers 400 with its message. */
  lemma UpdateBlankContentRejected(store: Store, id: Id, caller: Id, content: string, image: Option<string>, now: int)
    requires id in store && store[id].author == caller
    requires content != "" && IsBlank(content)
    ensures UpdatePost(store, id, caller, Some(content), image, now) == Fail(400, Some(ContentRequired))
  {
    assert Trim(content) == [];
  }

  /** An owner's edit that leaves the content out keeps the stored content and succeeds on a
      valid post, whatever the image. */
  lemma UpdateImageOnly(store: Store, id: Id, caller: Id, image: Option<string>, now: int)
    requires id in store && store[id].author == caller && ValidPost(store[id])
    ensures var r := UpdatePost(store, id, caller, None, image, now);
      r.Ok? && r.value.0[id].content == store[id].content
  {
    var prev := store[id];
    var edited := prev.(image := if image.Some? then image.value else prev.image);
    assert ValidPost(edited);
  }

  /** `DELETE /posts/:id` by `caller`. */
  function DeletePost(store: Store, id: Id, caller: Id): (r: Result<Store>)
    ensures id !in store ==> r == Fail(404, Some(PostNotFound))
    ensures id in store && store[id].author != caller ==> r == Fail(403, Some(DeleteForbidden))
    ensures id in store && store[id].author == caller ==> r.Ok?
    ensures r.Ok? ==> r.value.Keys == store.Keys - {id}
    ensures r.Ok? ==> forall k :: k in r.value ==> r.value[k] == store[k]
  {
    if id !in store then Fail(404, Some(PostNotFound))
    else if store[id].author != caller then Fail(403, Some(DeleteForbidden))
    else Ok(store - {id})
  }

  // ---------------------------------------------------------------- post like

  datatype LikeResponse = LikeResponse(likes: nat, isLiked: bool)

  /** `POST /posts/:id/like` by `caller`: toggle the caller in the post's likes. */
  function LikePost(store: Store, id: Id, caller: Id, now: int): (r: Result<(Store, LikeResponse)>)
    ensures id !in store ==> r == Fail(404, Some(PostNotFound))
    ensures id in store && ValidPost(store[id]) ==> r.Ok?
    ensures r.Ok? ==> id in store && id in r.value.0 && r.value.0 == store[id := r.value.0[id]]
    ensures r.Ok? ==>
      var prev := store[id];
      var p := r.value.0[id];
      && p == prev.(likes := p.likes, updatedAt := now)
      && (caller !in prev.likes ==> p.likes == prev.likes + [caller])
      && (caller in prev.likes ==> multiset(p.likes) == multiset(prev.likes) - multiset{caller})
      && r.value.1 == LikeResponse(|p.likes|, caller !in prev.likes)
  {
    if id !in store then Fail(404, Some(PostNotFound))
    else
      var prev := store[id];
      var p := prev.(likes := Toggle(prev.likes, caller));
      match Save(p, now)
      case Rejected(ms) => ErrorHandler.AsFailure(ErrorHandler.ValidationFailure(ms))
      case Stored(q) => Ok((store[id := q], LikeResponse(|q.likes|, caller !in prev.likes)))
  }

  /** Liking a post twice, starting from not liked, restores its like list exactly. */
  lemma LikePostTwice(store: Store, id: Id, caller: Id, now1: int, now2: int)
    requires id in store && ValidPost(store[id]) && caller !in store[id].likes
    ensures var first := LikePost(store, id, caller, now1);
      && first.Ok? && first.value.1 == LikeResponse(|store[id].likes| + 1, true)
      && var second := LikePost(first.value.0, id, caller, now2);
      && second.Ok? && second.value.1 == LikeResponse(|store[id].likes|, false)
      && second.value.0[id].likes == store[id].likes
  {
    var first := LikePost(store, id, caller, now1);
    ToggleTwiceAbsent(store[id].likes, caller);
    assert ValidPost(first.value.0[id]);
  }

  /** The like response agrees with what a later read shows the same caller: the count
      and the liked flag of the stored post's projection, as long as the like list held
      no repeated ids. */
  lemma {:induction false} LikeResponseMatchesView(store: Store, id: Id, caller: Id, now: int)
    requires id in store && NoDup(store[id].likes) && caller != ""
    ensures var r := LikePost(store, id, caller, now);
      r.Ok? ==>
        && Project(r.value.0[id], Some(caller)).likes == r.value.1.likes
        && Project(r.value.0[id], Some(caller)).isLiked == Some(r.value.1.isLiked)
  {
    var r := LikePost(store, id, caller, now);
    if r.Ok? {
      ToggleNoDup(store[id].likes, caller);
      assert r.value.0[id].likes == Toggle(store[id].likes, caller);
    }
  }

  // ---------------------------------------------------------------- comments and replies

  /** `POST /posts/:id/comment` by `caller`; `commentId` is the id the driver assigns.
      Blank content is rejected before the post is looked up. */
  function AddComment(store: Store, id: Id, caller: Id, content: Option<string>, commentId: Id, now: int)
    : (r: Result<(Store, Comment)>)
    ensures BlankField(content) ==> r == Fail(400, Some(CommentRequired))
    ensures !BlankField(content) && id !in store ==> r == Fail(404, Some(PostNotFound))
    ensures !BlankField(content) && id in store && ValidPost(store[id]) ==> r.Ok?
    ensures r.Ok? ==> id in store && id in r.value.0 && r.value.0 == store[id := r.value.0[id]]
    ensures r.Ok? ==>
      var prev := store[id];
      var p := r.value.0[id];
      && p == prev.(comments := p.comments, updatedAt := now)
      && |p.comments| == |prev.comments| + 1
      && p.comments[..|prev.comments|] == prev.comments
      && r.value.1 == p.comments[|p.comments| - 1]
      && r.value.1 == NewComment(commentId, caller, content.value, now)
  {
    if BlankField(content) then Fail(400, Some(CommentRequired))
    else if id !in store then Fail(404, Some(PostNotFound))
    else
      var prev := store[id];
      var c := NewComment(commentId, caller, Trim(content.value), now);
      TrimIdempotent(content.value);
      var p := prev.(comments := prev.comments + [c]);
      assert ValidPost(prev) ==> ValidPost(p) by {
        if ValidPost(prev) {
          forall i | 0 <= i < |p.comments| ensures ValidComment(p.comments[i]) {
            if i < |prev.comments| { assert p.comments[i] == prev.comments[i]; }
          }
        }
      }
      match Save(p, now)
      case Rejected(ms) => ErrorHandler.AsFailure(ErrorHandler.ValidationFailure(ms))
      case Stored(q) =>
        assert q.comments[..|prev.comments|] == prev.comments;
        Ok((store[id := q], q.comments[|q.comments| - 1]))
  }

  /** The ids of the top-level comments, in order. */
  function CommentIds(cs: seq<Comment>): (ids: seq<Id>)
    ensures |ids| == |cs| && forall i :: 0 <= i < |cs| ==> ids[i] == cs[i].id
  {
    seq(|cs|, i requires 0 <= i < |cs| => cs[i].id)
  }

  /** `post.comments.id(commentId)`: the position of the first top-level comment with that id, or -1.
      Replies are not searched. */
  function FindComment(cs: seq<Comment>, commentId: Id): (k: int)
    ensures -1 <= k < |cs|
    ensures k == -1 <==> forall i :: 0 <= i < |cs| ==> cs[i].id != commentId
    ensures 0 <= k ==> cs[k].id == commentId && forall i :: 0 <= i < k ==> cs[i].id != commentId
  {
    var ids := CommentIds(cs);
    var k := IndexOf(ids, commentId);
    assert k == -1 ==> forall i :: 0 <= i < |cs| ==> ids[i] != commentId;
    assert 0 <= k ==> forall i :: 0 <= i < k ==> ids[..k][i] != commentId;
    k
  }

  /** `POST /posts/:postId/comment/:commentId/reply` by `caller`; `replyId` is the id the driver assigns.
      Only a top-level comment can be addressed. */
  function AddReply(store: Store, postId: Id, commentId: Id, caller: Id, content: Option<string>, replyId: Id, now: int)
    : (r: Result<(Store, Reply)>)
    ensures BlankField(content) ==> r == Fail(400, Some(ReplyRequired))
    ensures !BlankField(content) && postId !in store ==> r == Fail(404, Some(PostNotFound))
    ensures (!BlankField(content) && postId in store && FindComment(store[postId].comments, commentId) == -1)
            ==> r == Fail(404, Some(CommentNotFound))
    ensures (!BlankField(content) && postId in store && FindComment(store[postId].comments, commentId) != -1
             && ValidPost(store[postId])) ==> r.Ok?
    ensures r.Ok? ==> postId in store && postId in r.value.0 && r.value.0 == store[postId := r.value.0[postId]]
    ensures r.Ok? ==> 0 <= FindComment(store[postId].comments, commentId)
    ensures r.Ok? ==>
      var prev := store[postId];
      var p := r.value.0[postId];
      var k := FindComment(prev.comments, commentId);
      && p == prev.(comments := p.comments, updatedAt := now)
      && |p.comments| == |prev.comments|
      && (forall i :: 0 <= i < |prev.comments| && i != k ==> p.comments[i] == prev.comments[i])
      && p.comments[k] == prev.comments[k].(replies := prev.comments[k].replies + [r.value.1])
      && r.value.1 == NewReply(replyId, caller, content.value, now)
  {
    if BlankField(content) then Fail(400, Some(ReplyRequired))
    else if postId !in store then Fail(404, Some(PostNotFound))
    else
      var prev := store[postId];
      var k := FindComment(prev.comments, commentId);
      if k == -1 then Fail(404, Some(CommentNotFound))
      else
        var reply := NewReply(replyId, caller, Trim(content.value), now);
        TrimIdempotent(content.value);
        var c := prev.comments[k];
        var c' := c.(replies := c.replies + [reply]);
        var p := prev.(comments := prev.comments[k := c']);
        assert ValidPost(prev) ==> ValidPost(p) by {
          if ValidPost(prev) {
            assert ValidComment(c);
            assert ValidComment(c') by {
              forall j | 0 <= j < |c'.replies| ensures c'.replies[j].content != "" {
                if j < |c.replies| { assert c'.replies[j] == c.replies[j]; }
              }
            }
          }
        }
        match Save(p, now)
        case Rejected(ms) => ErrorHandler.AsFailure(ErrorHandler.ValidationFailure(ms))
        case Stored(q) => Ok((store[postId := q], reply))
  }

  // ---------------------------------------------------------------- comment like / dislike

  /** The two reactions on a comment. */
  datatype Reaction = Like | Dislike

  /** The mutation of one comment: first drop the caller from the opposite list (first occurrence),
      then toggle the caller in the target list. */
  function React(c: Comment, caller: Id, reaction: Reaction): (c': Comment)
    ensures c' == c.(likes := c'.likes, dislikes := c'.dislikes)
    ensures reaction == Like ==> c'.likes == Toggle(c.likes, caller) && c'.dislikes == RemoveFirst(c.dislikes, caller)
    ensures reaction == Dislike ==> c'.dislikes == Toggle(c.dislikes, caller) && c'.likes == RemoveFirst(c.likes, caller)
  {
    match reaction
    case Like => c.(dislikes := RemoveFirst(c.dislikes, caller), likes := Toggle(c.likes, caller))
    case Dislike => c.(likes := RemoveFirst(c.likes, caller), dislikes := Toggle(c.dislikes, caller))
  }

  /** Likes and dislikes hold no duplicates and no id in both. */
  predicate ReactionsSound(likes: seq<Id>, dislikes: seq<Id>) {
    NoDup(likes) && NoDup(dislikes) && forall u :: u in likes ==> u !in dislikes
  }

  /** A reaction keeps the lists duplicate-free and disjoint, flips the caller in the target list,
      removes the caller from the other list, and leaves every other id where it was. */
  lemma ReactKeepsSound(c: Comment, caller: Id, reaction: Reaction)
    requires ReactionsSound(c.likes, c.dislikes)
    ensures var c' := React(c, caller, reaction);
      && ReactionsSound(c'.likes, c'.dislikes)
      && (reaction == Like ==> (caller in c'.likes <==> caller !in c.likes) && caller !in c'.dislikes)
      && (reaction == Dislike ==> (caller in c'.dislikes <==> caller !in c.dislikes) && caller !in c'.likes)
      && (forall u :: u != caller ==> (u in c'.likes <==> u in c.likes) && (u in c'.dislikes <==> u in c.dislikes))
  {
    if reaction == Like {
      ToggleAgainst(c.likes, c.dislikes, caller);
    } else {
      ToggleAgainst(c.dislikes, c.likes, caller);
    }
  }

  /** The list step shared by like and dislike: toggle in `target`, drop from `other`. */
  lemma ToggleAgainst(target: seq<Id>, other: seq<Id>, caller: Id)
    requires NoDup(target) && NoDup(other) && forall u :: u in target ==> u !in other
    ensures var t := Toggle(target, caller);
      var o := RemoveFirst(other, caller);
      && NoDup(t) && NoDup(o) && (forall u :: u in t ==> u !in o)
      && (caller in t <==> caller !in target) && caller !in o
      && (forall u :: u != caller ==> (u in t <==> u in target) && (u in o <==> u in other))
  {
    ToggleNoDup(target, caller);
    RemoveFirstNoDup(other, caller);
  }

  datatype ReactionCounts = ReactionCounts(likes: nat, dislikes: nat)

  /** `POST /posts/:postId/comment/:commentId/like` (or `/dislike`) by `caller`.
      Only top-level comments are found; replies answer 404. */
  function ReactToComment(store: Store, postId: Id, commentId: Id, caller: Id, reaction: Reaction, now: int)
    : (r: Result<(Store, ReactionCounts)>)
    ensures postId !in store ==> r == Fail(404, Some(PostNotFound))
    ensures (postId in store && FindComment(store[postId].comments, commentId) == -1)
            ==> r == Fail(404, Some(CommentNotFound))
    ensures (postId in store && FindComment(store[postId].comments, commentId) != -1
             && ValidPost(store[postId])) ==> r.Ok?
    ensures r.Ok? ==> postId in store && postId in r.value.0 && r.value.0 == store[postId := r.value.0[postId]]
    ensures r.Ok? ==> 0 <= FindComment(store[postId].comments, commentId)
    ensures r.Ok? ==>
      var prev := store[postId];
      var p := r.value.0[postId];
      var k := FindComment(prev.comments, commentId);
      && p == prev.(comments := prev.comments[k := React(prev.comments[k], caller, reaction)], updatedAt := now)
      && r.value.1 == ReactionCounts(|p.comments[k].likes|, |p.comments[k].dislikes|)
  {
    if postId !in store then Fail(404, Some(PostNotFound))
    else
      var prev := store[postId];
      var k := FindComment(prev.comments, commentId);
      if k == -1 then Fail(404, Some(CommentNotFound))
      else
        var c' := React(prev.comments[k], caller, reaction);
        var p := prev.(comments := prev.comments[k := c']);
        assert ValidPost(prev) ==> ValidPost(p) by {
          if ValidPost(prev) { assert ValidComment(prev.comments[k]); }
        }
        match Save(p, now)
        case Rejected(ms) => ErrorHandler.AsFailure(ErrorHandler.ValidationFailure(ms))
        case Stored(q) => Ok((store[postId := q], ReactionCounts(|c'.likes|, |c'.dislikes|)))
  }
}

=== FILE: reply_depth.dfy ===
/** Where the client and the server disagree about replies. The comment row offers a reply button
    on replies down to depth 2 and sends the reply's own id as the parent, and the card inserts
    replies at any depth; the server looks the id up among top-level comments only. Likewise the
    server's like/dislike endpoints find only top-level comments, although stored replies carry
    their own like and dislike lists. */
module ReplyDepth {
  import opened Base
  import opened PostModel
  import opened PostRoutes
  import CommentItem
  import PostCard

  /** No reply shares its id with a top-level comment of the post. */
  predicate ReplyIdsDistinct(p: Post) {
    forall i, k, j :: 0 <= i < |p.comments| && 0 <= k < |p.comments| && 0 <= j < |p.comments[k].replies| ==>
      p.comments[i].id != p.comments[k].replies[j].id
  }

  /** A reply row (depth 1 below a top-level comment) offers the reply button, yet replying to it
      is answered with 404 "comment not found" and stores nothing. */
  lemma ReplyToReplyRejected(store: Store, postId: Id, k: nat, j: nat, caller: Id, content: string,
                             replyId: Id, now: int)
    requires postId in store && ReplyIdsDistinct(store[postId])
    requires k < |store[postId].comments| && j < |store[postId].comments[k].replies|
    requires !BlankField(Some(content))
    ensures CommentItem.CanReply(1) && CommentItem.CanReply(2)
    ensures var target := store[postId].comments[k].replies[j].id;
      AddReply(store, postId, target, caller, Some(content), replyId, now) == Fail(404, Some(CommentNotFound))
  {
    var target := store[postId].comments[k].replies[j].id;
    assert forall i :: 0 <= i < |store[postId].comments| ==> store[postId].comments[i].id != target;
  }

  /** Liking or disliking a reply through the server is answered with 404, so only the comment
      row's local fallback can ever change a reply's displayed counts. */
  lemma ReactToReplyRejected(store: Store, postId: Id, k: nat, j: nat, caller: Id, reaction: Reaction, now: int)
    requires postId in store && ReplyIdsDistinct(store[postId])
    requires k < |store[postId].comments| && j < |store[postId].comments[k].replies|
    ensures var target := store[postId].comments[k].replies[j].id;
      ReactToComment(store, postId, target, caller, reaction, now) == Fail(404, Some(CommentNotFound))
  {
    var target := store[postId].comments[k].replies[j].id;
    assert forall i :: 0 <= i < |store[postId].comments| ==> store[postId].comments[i].id != target;
  }

  /** The client-side insertion, by contrast, does reach a reply: a forest holding a comment whose
      replies contain the parent id grows. */
  lemma ClientInsertsUnderReply(top: PostCard.ClientComment, child: PostCard.ClientComment,
                                reply: PostCard.ClientComment)
    requires top.id != child.id && top.hasReplies && top.replies == [child]
    ensures PostCard.Size(PostCard.AddReply([top], child.id, reply)) > PostCard.Size([top])
  {
    assert PostCard.Contains(top.replies, child.id);
    assert PostCard.Contains([top], child.id);
    PostCard.AddReplyGrows([top], child.id, reply);
  }
}

=== FILE: seqs.dfy ===
/** The array operations the handlers use on id lists and cached lists:
    `filter`, `indexOf`, `splice(i, 1)`, `push`, and the toggles built from them. */
module Seqs {

  /** `Array.prototype.filter`: the elements satisfying `keep`, in their original order. */
  function Filter<T(!new)>(s: seq<T>, keep: T -> bool): (r: seq<T>)
    ensures |r| <= |s|
    ensures forall i :: 0 <= i < |r| ==> keep(r[i])
  {
    if s == [] then []
    else
      var rest := Filter(s[1..], keep);
      if keep(s[0]) then [s[0]] + rest else rest
  }

  /** The filter keeps every occurrence of a kept element and none of a dropped one. */
  lemma {:induction false} FilterCount<T(!new)>(s: seq<T>, keep: T -> bool, x: T)
    ensures multiset(Filter(s, keep))[x] == if keep(x) then multiset(s)[x] else 0
  {
    if s != [] {
      FilterCount(s[1..], keep, x);
      assert s == [s[0]] + s[1..];
    }
  }

  /** Filtering distributes over concatenation, so relative order is preserved. */
  lemma {:induction false} FilterConcat<T(!new)>(a: seq<T>, b: seq<T>, keep: T -> bool)
    ensures Filter(a + b, keep) == Filter(a, keep) + Filter(b, keep)
  {
    if a == [] {
      assert a + b == b;
    } else {
      FilterConcat(a[1..], b, keep);
      assert a + b == [a[0]] + (a[1..] + b);
      assert a == [a[0]] + a[1..];
      FilterCons(a[0], a[1..] + b, keep);
      FilterCons(a[0], a[1..], keep);
    }
  }

  /** Filtering a list with a known head. */
  lemma FilterCons<T(!new)>(a: T, rest: seq<T>, keep: T -> bool)
    ensures Filter([a] + rest, keep) == (if keep(a) then [a] else []) + Filter(rest, keep)
  {
    assert ([a] + rest)[0] == a && ([a] + rest)[1..] == rest;
  }

  /** A filter that keeps every element changes nothing. */
  lemma {:induction false} FilterKeepsAll<T(!new)>(s: seq<T>, keep: T -> bool)
    requires forall i :: 0 <= i < |s| ==> keep(s[i])
    ensures Filter(s, keep) == s
  {
    if s != [] {
      FilterKeepsAll(s[1..], keep);
    }
  }

  /** No element occurs twice. */
  predicate NoDup<T(==)>(s: seq<T>) {
    forall i, j :: 0 <= i < j < |s| ==> s[i] != s[j]
  }

  /** `Array.prototype.indexOf`: the first position of `x`, or -1. */
  function IndexOf<T(==)>(s: seq<T>, x: T): (i: int)
    ensures -1 <= i < |s|
    ensures i == -1 <==> x !in s
    ensures 0 <= i ==> s[i] == x && x !in s[..i]
  {
    if s == [] then -1
    else if s[0] == x then 0
    else
      var j := IndexOf(s[1..], x);
      assert j >= 0 ==> s[..j + 1] == [s[0]] + s[1..][..j];
      if j == -1 then -1 else j + 1
  }

  /** The first position whose element satisfies `p`, or -1 when none does: the answer of a
      `findOne` / `findById` query over a collection in natural order. */
  function FirstWhere<T>(s: seq<T>, p: T -> bool): (k: int)
    ensures -1 <= k < |s|
    ensures k == -1 <==> forall i :: 0 <= i < |s| ==> !p(s[i])
    ensures 0 <= k ==> p(s[k]) && forall i :: 0 <= i < k ==> !p(s[i])
  {
    if s == [] then -1
    else if p(s[0]) then 0
    else
      var k := FirstWhere(s[1..], p);
      if k == -1 then -1 else k + 1
  }

  /** `splice(i, 1)`: drop the element at position `i`. */
  function RemoveAt<T>(s: seq<T>, i: nat): (r: seq<T>)
    requires i < |s|
    ensures |r| == |s| - 1
    ensures r[..i] == s[..i] && r[i..] == s[i + 1..]
    ensures multiset(r) == multiset(s) - multiset{s[i]}
  {
    assert s == s[..i] + [s[i]] + s[i + 1..];
    s[..i] + s[i + 1..]
  }

  /** `const k = s.indexOf(x); if (k > -1) s.splice(k, 1)`: drop the first occurrence of `x`. */
  function RemoveFirst<T(==)>(s: seq<T>, x: T): (r: seq<T>)
    ensures x !in s ==> r == s
    ensures x in s ==> multiset(r) == multiset(s) - multiset{x}
  {
    var k := IndexOf(s, x);
    if k > -1 then RemoveAt(s, k) else s
  }

  /** On a duplicate-free list, removing the first occurrence removes `x` entirely and nothing else. */
  lemma RemoveFirstNoDup<T>(s: seq<T>, x: T)
    requires NoDup(s)
    ensures NoDup(RemoveFirst(s, x))
    ensures forall y :: y in RemoveFirst(s, x) <==> y in s && y != x
  {
    if x in s {
      var k := IndexOf(s, x);
      var r := s[..k] + s[k + 1..];
      assert RemoveFirst(s, x) == r;
      assert forall i :: 0 <= i < |r| ==> r[i] == s[if i < k then i else i + 1];
      forall y ensures y in r <==> y in s && y != x {
        if y in r {
          var i :| 0 <= i < |r| && r[i] == y;
          assert s[if i < k then i else i + 1] == y;
        }
        if y in s && y != x {
          var i :| 0 <= i < |s| && s[i] == y;
          assert r[if i < k then i else i - 1] == y;
        }
      }
    }
  }

  /** In a duplicate-free list an element at position `k` occurs exactly once. */
  lemma {:induction false} NoDupCount<T>(s: seq<T>, k: nat)
    requires NoDup(s) && k < |s|
    ensures multiset(s)[s[k]] == 1
  {
    assert s == s[..k] + [s[k]] + s[k + 1..];
    assert s[k] !in s[..k];
    assert s[k] !in s[k + 1..];
    assert multiset(s[..k])[s[k]] == 0;
    assert multiset(s[k + 1..])[s[k]] == 0;
  }

  /** Like toggle: remove the first occurrence of `x` if present, otherwise append it. */
  function Toggle<T(==)>(s: seq<T>, x: T): (r: seq<T>)
    ensures x !in s ==> x in r && multiset(r) == multiset(s) + multiset{x}
    ensures x in s ==> multiset(r) == multiset(s) - multiset{x}
  {
    if x in s then RemoveFirst(s, x) else s + [x]
  }

  /** On a duplicate-free list the toggle flips the membership of `x`, keeps the list duplicate-free,
      and leaves every other member in place. */
  lemma ToggleNoDup<T>(s: seq<T>, x: T)
    requires NoDup(s)
    ensures NoDup(Toggle(s, x))
    ensures x in Toggle(s, x) <==> x !in s
    ensures forall y :: y != x ==> (y in Toggle(s, x) <==> y in s)
  {
    if x in s {
      RemoveFirstNoDup(s, x);
    } else {
      var r := s + [x];
      assert forall y :: y in r <==> y in s || y == x;
    }
  }

  /** Toggling an absent element twice gives back exactly the original list. */
  lemma ToggleTwiceAbsent<T>(s: seq<T>, x: T)
    requires x !in s
    ensures Toggle(Toggle(s, x), x) == s
  {
    var t := s + [x];
    assert IndexOf(t, x) == |s|;
    assert t[..|s|] == s;
  }

  /** Toggling twice restores membership of every element on a duplicate-free list. */
  lemma ToggleTwiceMembers<T>(s: seq<T>, x: T)
    requires NoDup(s)
    ensures forall y :: y in Toggle(Toggle(s, x), x) <==> y in s
  {
    ToggleNoDup(s, x);
    ToggleNoDup(Toggle(s, x), x);
  }

  /** `s.filter(id => id !== x)`: drop every occurrence of `x`. */
  function RemoveAll<T(==,!new)>(s: seq<T>, x: T): (r: seq<T>)
    ensures x !in r
    ensures forall y :: y != x ==> multiset(r)[y] == multiset(s)[y]
  {
    var r := Filter(s, y => y != x);
    forall y ensures multiset(r)[y] == if y != x then multiset(s)[y] else 0 {
      FilterCount(s, y => y != x, y);
    }
    assert x in r ==> multiset(r)[x] > 0;
    r
  }

  /** Removing an element that does not occur changes nothing. */
  lemma RemoveAllAbsent<T(!new)>(s: seq<T>, x: T)
    requires x !in s
    ensures RemoveAll(s, x) == s
  {
    FilterKeepsAll(s, y => y != x);
  }
}

=== FILE: text.dfy ===
/** String helpers with JavaScript semantics: `trim`, `\s`, ASCII `toLowerCase`, `startsWith`. */
module Text {

  /** The characters JavaScript's `trim` removes and `\s` matches: the white-space
      characters and line terminators of ECMAScript. */
  predicate IsSpace(c: char) {
    || c == ' ' || c == '\t' || c == '\n' || c == '\r' || c == '\U{000B}' || c == '\U{000C}'
    || c == '\U{00A0}' || c == '\U{1680}' || ('\U{2000}' <= c <= '\U{200A}')
    || c == '\U{2028}' || c == '\U{2029}' || c == '\U{202F}' || c == '\U{205F}'
    || c == '\U{3000}' || c == '\U{FEFF}'
  }

  /** Every character is white space (so `s.trim().length === 0`). */
  predicate IsBlank(s: string) {
    forall i :: 0 <= i < |s| ==> IsSpace(s[i])
  }

  /** Number of leading white-space characters. */
  function LeadingSpace(s: string): (n: nat)
    ensures n <= |s|
    ensures forall i :: 0 <= i < n ==> IsSpace(s[i])
    ensures n == |s| || !IsSpace(s[n])
  {
    if |s| > 0 && IsSpace(s[0]) then 1 + LeadingSpace(s[1..]) else 0
  }

  /** Number of trailing white-space characters. */
  function TrailingSpace(s: string): (n: nat)
    ensures n <= |s|
    ensures forall i :: |s| - n <= i < |s| ==> IsSpace(s[i])
    ensures n == |s| || !IsSpace(s[|s| - n - 1])
  {
    if |s| > 0 && IsSpace(s[|s| - 1]) then 1 + TrailingSpace(s[..|s| - 1]) else 0
  }

  /** `String.prototype.trim`: the infix left after dropping leading and trailing white space. */
  function Trim(s: string): (r: string)
    ensures |r| <= |s|
    ensures r == [] || (!IsSpace(r[0]) && !IsSpace(r[|r| - 1]))
    ensures r == [] <==> IsBlank(s)
    ensures LeadingSpace(s) + |r| <= |s| && r == s[LeadingSpace(s)..LeadingSpace(s) + |r|]
    ensures IsBlank(s[LeadingSpace(s) + |r|..])
  {
    var a := LeadingSpace(s);
    var t := s[a..];
    var b := TrailingSpace(t);
    var r := t[..|t| - b];
    if r == [] then
      r
    else
      assert r[0] == s[a];
      assert r[|r| - 1] == t[|t| - b - 1];
      r
  }

  /** The trim is the only unpadded infix with white space alone around it. */
  lemma {:induction false} TrimUnique(s: string, a: nat, r: string)
    requires a + |r| <= |s| && r == s[a..a + |r|]
    requires IsBlank(s[..a]) && IsBlank(s[a + |r|..])
    requires r == [] || (!IsSpace(r[0]) && !IsSpace(r[|r| - 1]))
    ensures Trim(s) == r
  {
    if r == [] {
      assert IsBlank(s) by {
        forall i | 0 <= i < |s| ensures IsSpace(s[i]) {
          if i < a { assert s[..a][i] == s[i]; } else { assert s[a..][i - a] == s[i]; }
        }
      }
    } else {
      var n := LeadingSpace(s);
      assert s[a] == r[0];
      assert !IsSpace(s[a]);
      assert n <= a;
      assert n == a;
      var t := s[a..];
      var m := TrailingSpace(t);
      var e := |t| - |r|;
      assert t[|r| - 1] == r[|r| - 1];
      forall i | |r| <= i < |t| ensures IsSpace(t[i]) {
        assert s[a + |r|..][i - |r|] == t[i];
      }
      assert !IsSpace(t[|r| - 1]);
      assert m <= e;
      assert m == e;
      assert t[..|t| - m] == r;
    }
  }

  /** A string with no white space at either end is its own trim. */
  lemma TrimUnpadded(s: string)
    requires s == [] || (!IsSpace(s[0]) && !IsSpace(s[|s| - 1]))
    ensures Trim(s) == s
  {
    if s != [] {
      assert LeadingSpace(s) == 0;
      assert s[0..] == s;
      assert TrailingSpace(s) == 0;
      assert s[..|s|] == s;
    }
  }

  /** Trimming twice is trimming once. */
  lemma TrimIdempotent(s: string)
    ensures Trim(Trim(s)) == Trim(s)
  {
    TrimUnpadded(Trim(s));
  }

  /** ASCII part of `toLowerCase`. */
  function LowerChar(c: char): (d: char)
    ensures 'A' <= c <= 'Z' ==> d as int == c as int + 32
    ensures !('A' <= c <= 'Z') ==> d == c
  {
    if 'A' <= c <= 'Z' then (c as int + 32) as char else c
  }

  /** `String.prototype.toLowerCase`, restricted to ASCII letters. */
  function Lower(s: string): (r: string)
    ensures |r| == |s|
    ensures forall i :: 0 <= i < |s| ==> r[i] == LowerChar(s[i])
    ensures forall i :: 0 <= i < |r| ==> !('A' <= r[i] <= 'Z')
    ensures forall i :: 0 <= i < |s| ==> (IsSpace(r[i]) <==> IsSpace(s[i]))
  {
    seq(|s|, i requires 0 <= i < |s| => LowerChar(s[i]))
  }

  /** Lower-casing is idempotent, so normalised keys stay normalised. */
  lemma LowerIdempotent(s: string)
    ensures Lower(Lower(s)) == Lower(s)
  {
  }

  /** Lower-casing and trimming commute, since lower-casing maps white space to white space
      and nothing else to white space. */
  lemma LowerTrimCommute(s: string)
    ensures Trim(Lower(s)) == Lower(Trim(s))
  {
    LeadingBlank(s);
    LowerKeepsFrame(s, LeadingSpace(s), Trim(s));
    TrimUnique(Lower(s), LeadingSpace(s), Lower(Trim(s)));
  }

  /** Lower-casing keeps an unpadded infix framed by white space: the lower-cased infix sits at
      the same place in the lower-cased string, with white space alone around it. */
  lemma LowerKeepsFrame(s: string, a: nat, t: string)
    requires a + |t| <= |s| && t == s[a..a + |t|]
    requires IsBlank(s[..a]) && IsBlank(s[a + |t|..])
    requires t == [] || (!IsSpace(t[0]) && !IsSpace(t[|t| - 1]))
    ensures a + |Lower(t)| <= |Lower(s)| && Lower(t) == Lower(s)[a..a + |Lower(t)|]
    ensures IsBlank(Lower(s)[..a]) && IsBlank(Lower(s)[a + |Lower(t)|..])
    ensures Lower(t) == [] || (!IsSpace(Lower(t)[0]) && !IsSpace(Lower(t)[|Lower(t)| - 1]))
  {
    LowerPrefix(s, a);
    LowerBlank(s[..a]);
    LowerSuffix(s, a + |t|);
    LowerBlank(s[a + |t|..]);
    LowerInfix(s, a, t);
    LowerUnpadded(t);
  }

  /** Lower-casing an infix lower-cases the same stretch of the string. */
  lemma LowerInfix(s: string, a: nat, t: string)
    requires a + |t| <= |s| && t == s[a..a + |t|]
    ensures Lower(t) == Lower(s)[a..a + |t|]
  {
    LowerSlice(s, a, a + |t|);
  }

  /** The leading white space of a string is blank. */
  lemma LeadingBlank(s: string)
    ensures IsBlank(s[..LeadingSpace(s)])
  {
  }

  /** Lower-casing a prefix is taking the prefix of the lower-cased string. */
  lemma LowerPrefix(s: string, a: nat)
    requires a <= |s|
    ensures Lower(s[..a]) == Lower(s)[..a]
  {
  }

  /** Lower-casing a suffix is taking the suffix of the lower-cased string. */
  lemma LowerSuffix(s: string, b: nat)
    requires b <= |s|
    ensures Lower(s[b..]) == Lower(s)[b..]
  {
  }

  /** Lower-casing keeps a string's ends free of white space. */
  lemma LowerUnpadded(t: string)
    requires t == [] || (!IsSpace(t[0]) && !IsSpace(t[|t| - 1]))
    ensures Lower(t) == [] || (!IsSpace(Lower(t)[0]) && !IsSpace(Lower(t)[|t| - 1]))
  {
  }

  /** Lower-casing a slice is slicing the lower-cased string. */
  lemma LowerSlice(s: string, i: nat, j: nat)
    requires i <= j <= |s|
    ensures Lower(s[i..j]) == Lower(s)[i..j]
  {
  }

  /** Lower-casing keeps a blank string blank. */
  lemma LowerBlank(s: string)
    requires IsBlank(s)
    ensures IsBlank(Lower(s))
  {
  }

  /** `String.prototype.startsWith`. */
  predicate StartsWith(s: string, prefix: string) {
    |prefix| <= |s| && s[..|prefix|] == prefix
  }

  /** Decimal digits of a natural number, as `String(n)` renders it. */
  function DecimalString(n: nat): (r: string)
    ensures |r| >= 1
    ensures forall i :: 0 <= i < |r| ==> '0' <= r[i] <= '9'
  {
    var d := ['0' + (n % 10) as char];
    if n < 10 then d else DecimalString(n / 10) + d
  }
}

=== FILE: user_model.dfy ===
/** The User document of backend/src/models/User.js: normalised login keys, profile defaults,
    the follow lists, and the serialiser that drops the password. */
module UserModel {
  import opened Base
  import opened Text

  const MaxBio := 160
  const MinPassword := 6

  const EmailRequired := "البريد الإلكتروني مطلوب"
  const UsernameRequired := "اسم المستخدم مطلوب"
  const DisplayNameRequired := "الاسم المعروض مطلوب"
  const PasswordRequired := "كلمة المرور مطلوبة"
  /** Mongoose's default minlength message, which quotes the rejected value. */
  function PasswordTooShort(value: string): string {
    "Path `password` (`" + value + "`) is shorter than the minimum allowed length (6)."
  }

  /** Mongoose's default maxlength message, which quotes the rejected value. */
  function BioTooLong(value: string): string {
    "Path `bio` (`" + value + "`) is longer than the maximum allowed length (160)."
  }

  datatype User = User(
    id: Id,
    email: string,
    username: string,
    displayName: string,
    password: string,
    avatar: string,
    bio: string,
    location: string,
    followers: seq<Id>,
    following: seq<Id>,
    createdAt: int)

  /** The `lowercase` and `trim` setters of `email` and `username`. */
  function NormalizeKey(s: string): (k: string)
    ensures |k| <= |s|
    ensures forall i :: 0 <= i < |k| ==> !('A' <= k[i] <= 'Z')
    ensures k == [] || (!IsSpace(k[0]) && !IsSpace(k[|k| - 1]))
    ensures k == Lower(Trim(s))
  {
    LowerTrimCommute(s);
    Trim(Lower(s))
  }

  /** Normalising a normalised key changes nothing. */
  lemma NormalizeKeyIdempotent(s: string)
    ensures NormalizeKey(NormalizeKey(s)) == NormalizeKey(s)
  {
    var k := NormalizeKey(s);
    LowerIdempotent(Trim(s));
    assert Lower(k) == k;
    TrimUnpadded(k);
  }

  /** A key that is already lower-case and unpadded is stored as given. */
  lemma NormalizeKeyKeepsNormal(s: string)
    requires Lower(s) == s
    requires s == [] || (!IsSpace(s[0]) && !IsSpace(s[|s| - 1]))
    ensures NormalizeKey(s) == s
  {
    TrimUnpadded(s);
  }

  /** Normalising ignores the case of ASCII letters. */
  lemma NormalizeKeyIgnoresCase(s: string)
    ensures NormalizeKey(Lower(s)) == NormalizeKey(s)
  {
    LowerIdempotent(s);
  }

  /** A new user document: email and username normalised, display name trimmed,
      avatar, bio and location empty, no follow edges. */
  function NewUser(id: Id, email: string, username: string, displayName: string, password: string, now: int): (u: User)
    ensures u.id == id && u.password == password && u.createdAt == now
    ensures u.email == NormalizeKey(email) && u.username == NormalizeKey(username)
    ensures u.displayName == Trim(displayName)
    ensures u.avatar == "" && u.bio == "" && u.location == ""
    ensures u.followers == [] && u.following == []
  {
    User(id, NormalizeKey(email), NormalizeKey(username), Trim(displayName), password, "", "", "", [], [], now)
  }

  /** The schema validators. */
  predicate ValidUser(u: User) {
    && u.email != "" && u.username != "" && u.displayName != ""
    && |u.password| >= MinPassword
    && |u.bio| <= MaxBio
  }

  /** The message of each failing path, in schema order. */
  function ValidationMessages(u: User): (ms: seq<string>)
    ensures ms == [] <==> ValidUser(u)
    ensures u.email == "" ==> ms[0] == EmailRequired
    ensures |u.bio| > MaxBio && ValidUser(u.(bio := "")) ==> ms == [BioTooLong(u.bio)]
  {
    (if u.email == "" then [EmailRequired] else [])
    + (if u.username == "" then [UsernameRequired] else [])
    + (if u.displayName == "" then [DisplayNameRequired] else [])
    + (if u.password == "" then [PasswordRequired] else if |u.password| < MinPassword then [PasswordTooShort(u.password)] else [])
    + (if |u.bio| > MaxBio then [BioTooLong(u.bio)] else [])
  }

  /** A value of a serialised document. */
  datatype Field = Str(s: string) | IdList(ids: seq<Id>) | Time(t: int)

  /** `user.toObject()`: every stored path by name. The version key `__v` that Mongoose adds
      to each document is not part of this model. */
  function ToObject(u: User): (m: map<string, Field>)
    ensures m.Keys == {"_id", "email", "username", "displayName", "password", "avatar", "bio",
                       "location", "followers", "following", "createdAt"}
    ensures m["password"] == Str(u.password)
  {
    map["_id" := Str(u.id), "email" := Str(u.email), "username" := Str(u.username),
        "displayName" := Str(u.displayName), "password" := Str(u.password), "avatar" := Str(u.avatar),
        "bio" := Str(u.bio), "location" := Str(u.location), "followers" := IdList(u.followers),
        "following" := IdList(u.following), "createdAt" := Time(u.createdAt)]
  }

  /** `toJSON`: the stored object with exactly the password removed. */
  function ToJson(u: User): (m: map<string, Field>)
    ensures "password" !in m
    ensures m.Keys == ToObject(u).Keys - {"password"}
    ensures forall k :: k in m ==> m[k] == ToObject(u)[k]
  {
    ToObject(u) - {"password"}
  }

  /** The serialised form does not depend on the password: two users differing only in it
      serialise identically. */
  lemma ToJsonIgnoresPassword(u: User, pw: string)
    ensures ToJson(u.(password := pw)) == ToJson(u)
  {
    assert ToJson(u.(password := pw)).Keys == ToJson(u).Keys;
  }
}

=== FILE: user_routes.dfy ===
/** The profile and follow handlers of backend/src/routes/users.js over the user collection,
    kept as a sequence in the collection's natural order. */
module UserRoutes {
  import opened Base
  import opened Text
  import opened Seqs
  import opened UserModel
  import ErrorHandler

  const UserNotFound := "المستخدم غير موجود"
  const SelfFollow := "لا يمكنك متابعة نفسك"

  /** The user collection in natural order. */
  type Users = seq<User>

  /** No two documents share an `_id`. */
  predicate UniqueIds(users: Users) {
    forall i, j :: 0 <= i < |users| && 0 <= j < |users| && i != j ==> users[i].id != users[j].id
  }

  /** The query filter `{ _id: id }`. */
  function HasId(id: Id): User -> bool {
    (u: User) => u.id == id
  }

  /** The query filter `{ username }`. */
  function HasUsername(username: string): User -> bool {
    (u: User) => u.username == username
  }

  /** `User.findById(id)`: the position of the first document with that id, or -1. */
  function FindUser(users: Users, id: Id): (k: int)
    ensures -1 <= k < |users|
    ensures k == -1 <==> forall i :: 0 <= i < |users| ==> users[i].id != id
    ensures 0 <= k ==> users[k].id == id && forall i :: 0 <= i < k ==> users[i].id != id
  {
    FirstWhere(users, HasId(id))
  }

  /** `User.findOne({ username })`: the filter value goes through the schema's lowercase and
      trim setters before it is compared; the first match in natural order, or -1. */
  function FindByUsername(users: Users, username: string): (k: int)
    ensures -1 <= k < |users|
    ensures k == -1 <==> forall i :: 0 <= i < |users| ==> users[i].username != NormalizeKey(username)
    ensures 0 <= k ==> users[k].username == NormalizeKey(username)
    ensures 0 <= k ==> forall i :: 0 <= i < k ==> users[i].username != NormalizeKey(username)
  {
    FirstWhere(users, HasUsername(NormalizeKey(username)))
  }

  // ---------------------------------------------------------------- profile read

  datatype ProfileView = ProfileView(
    id: Id,
    username: string,
    displayName: string,
    avatar: string,
    bio: string,
    location: string,
    followersCount: nat,
    followingCount: nat,
    createdAt: int,
    isFollowing: bool)

  /** Whether the viewer named by a valid token exists and follows `u`. */
  predicate ViewerFollows(users: Users, viewer: Option<Id>, u: User) {
    viewer.Some? && FindUser(users, viewer.value) != -1 && u.id in users[FindUser(users, viewer.value)].following
  }

  /** `GET /users/:username`; `viewer` is the id decoded from a valid token, None otherwise. */
  function GetProfile(users: Users, username: string, viewer: Option<Id>): (r: Result<ProfileView>)
    ensures FindByUsername(users, username) == -1 ==> r == Fail(404, Some(UserNotFound))
    ensures FindByUsername(users, username) != -1 ==> r.Ok?
    ensures r.Ok? ==>
      var u := users[FindByUsername(users, username)];
      && r.value.id == u.id && r.value.username == NormalizeKey(username)
      && r.value.displayName == u.displayName && r.value.avatar == u.avatar
      && r.value.bio == u.bio && r.value.location == u.location && r.value.createdAt == u.createdAt
      && r.value.followersCount == |u.followers| && r.value.followingCount == |u.following|
      && (r.value.isFollowing <==> ViewerFollows(users, viewer, u))
    ensures r.Ok? && viewer.None? ==> !r.value.isFollowing
  {
    var k := FindByUsername(users, username);
    if k == -1 then Fail(404, Some(UserNotFound))
    else
      var u := users[k];
      Ok(ProfileView(u.id, u.username, u.displayName, u.avatar, u.bio, u.location,
                     |u.followers|, |u.following|, u.createdAt, ViewerFollows(users, viewer, u)))
  }

  /** A profile is found whatever the case of the ASCII letters in the requested name. */
  lemma GetProfileIgnoresCase(users: Users, username: string, viewer: Option<Id>)
    ensures GetProfile(users, Lower(username), viewer) == GetProfile(users, username, viewer)
  {
    NormalizeKeyIgnoresCase(username);
  }

  // ---------------------------------------------------------------- profile update

  /** The profile object returned by the update. */
  datatype OwnProfile = OwnProfile(id: Id, email: string, username: string, displayName: string,
                                   avatar: string, bio: string, location: string)

  function Own(u: User): (p: OwnProfile)
    ensures p.id == u.id && p.email == u.email && p.username == u.username
    ensures p.displayName == u.displayName && p.avatar == u.avatar
    ensures p.bio == u.bio && p.location == u.location
  {
    OwnProfile(u.id, u.email, u.username, u.displayName, u.avatar, u.bio, u.location)
  }

  /** The partial update applied before saving: `displayName` only when truthy (the schema's
      `trim` setter applies), `bio`, `location` and `avatar` whenever present. */
  function ApplyProfile(u: User, displayName: Option<string>, bio: Option<string>, location: Option<string>, avatar: Option<string>)
    : (v: User)
    ensures v.displayName == (if Truthy(displayName) then Trim(displayName.value) else u.displayName)
    ensures v.bio == bio.GetOr(u.bio) && v.location == location.GetOr(u.location) && v.avatar == avatar.GetOr(u.avatar)
    ensures v.(displayName := u.displayName, bio := u.bio, location := u.location, avatar := u.avatar) == u
  {
    u.(displayName := if Truthy(displayName) then Trim(displayName.value) else u.displayName,
       bio := bio.GetOr(u.bio), location := location.GetOr(u.location), avatar := avatar.GetOr(u.avatar))
  }

  /** `PUT /users/profile` by `caller`, whom the authentication middleware has already loaded. */
  function UpdateProfile(users: Users, caller: Id, displayName: Option<string>, bio: Option<string>,
                         location: Option<string>, avatar: Option<string>): (r: Result<(Users, OwnProfile)>)
    requires FindUser(users, caller) != -1
    ensures var k := FindUser(users, caller);
      var v := ApplyProfile(users[k], displayName, bio, location, avatar);
      && (ValidUser(v) ==> r == Ok((users[k := v], Own(v))))
      && (!ValidUser(v) ==> r == Fail(400, Some(ValidationMessages(v)[0])))
    ensures r.Ok? ==> |r.value.0| == |users|
    ensures r.Ok? ==> forall i :: 0 <= i < |users| && users[i].id != caller ==> r.value.0[i] == users[i]
    ensures r.Ok? ==> var u := users[FindUser(users, caller)];
      var v := r.value.0[FindUser(users, caller)];
      v.email == u.email && v.username == u.username && v.followers == u.followers && v.following == u.following
  {
    var k := FindUser(users, caller);
    var v := ApplyProfile(users[k], displayName, bio, location, avatar);
    var ms := ValidationMessages(v);
    if ms != [] then ErrorHandler.AsFailure(ErrorHandler.ValidationFailure(ms))
    else Ok((users[k := v], Own(v)))
  }

  // ---------------------------------------------------------------- follow

  /** The follow edits of one call: either both edges are removed (every occurrence)
      or both are appended. */
  function FollowEdit(actor: User, target: User, following: bool): (p: (User, User))
    ensures following ==> (p.0.following == RemoveAll(actor.following, target.id)
                           && p.1.followers == RemoveAll(target.followers, actor.id))
    ensures !following ==> (p.0.following == actor.following + [target.id]
                            && p.1.followers == target.followers + [actor.id])
    ensures p.0 == actor.(following := p.0.following) && p.1 == target.(followers := p.1.followers)
  {
    if following then
      (actor.(following := RemoveAll(actor.following, target.id)),
       target.(followers := RemoveAll(target.followers, actor.id)))
    else
      (actor.(following := actor.following + [target.id]),
       target.(followers := target.followers + [actor.id]))
  }

  /** `POST /users/:id/follow` by `caller`, whom the authentication middleware has already loaded.
      The response body is the new `isFollowing`. */
  function Follow(users: Users, caller: Id, targetId: Id): (r: Result<(Users, bool)>)
    requires FindUser(users, caller) != -1
    ensures targetId == caller ==> r == Fail(400, Some(SelfFollow))
    ensures targetId != caller && FindUser(users, targetId) == -1 ==> r == Fail(404, Some(UserNotFound))
    ensures targetId != caller && FindUser(users, targetId) != -1 ==> r.Ok?
    ensures r.Ok? ==> r.value.1 == (targetId !in users[FindUser(users, caller)].following)
    ensures r.Ok? ==>
      var a := FindUser(users, caller);
      var t := FindUser(users, targetId);
      var edit := FollowEdit(users[a], users[t], targetId in users[a].following);
      && 0 <= t && a != t
      && r.value.0 == users[a := edit.0][t := edit.1]
  {
    if targetId == caller then Fail(400, Some(SelfFollow))
    else
      var t := FindUser(users, targetId);
      var a := FindUser(users, caller);
      if t == -1 then Fail(404, Some(UserNotFound))
      else
        var isFollowing := targetId in users[a].following;
        var edit := FollowEdit(users[a], users[t], isFollowing);
        Ok((users[a := edit.0][t := edit.1], !isFollowing))
  }

  /** The follow graph is symmetric: B is in A's following exactly when A is in B's followers. */
  predicate Symmetric(users: Users) {
    forall i, j :: 0 <= i < |users| && 0 <= j < |users| ==>
      (users[j].id in users[i].following <==> users[i].id in users[j].followers)
  }

  /** Removing every occurrence of `x`, or appending it, changes the membership of `x` only. */
  lemma EditMembership(l: seq<Id>, x: Id, remove: bool, y: Id)
    ensures y in (if remove then RemoveAll(l, x) else l + [x]) <==> (if y == x then !remove else y in l)
  {
    if remove && y != x {
      assert y in RemoveAll(l, x) <==> multiset(RemoveAll(l, x))[y] > 0;
      assert y in l <==> multiset(l)[y] > 0;
    }
  }

  /** The one edge a follow call by `caller` on `targetId` touches: its new state is the negation
      of whether the caller followed the target before. */
  function EdgeAfter(users: Users, caller: Id, targetId: Id, from: Id, to: Id, before: bool): bool
    requires FindUser(users, caller) != -1
  {
    if from == caller && to == targetId then targetId !in users[FindUser(users, caller)].following else before
  }

  /** A successful follow call sets exactly one edge of the graph, on both records: the caller's
      `following` holds the target, and the target's `followers` holds the caller, exactly when the
      caller did not follow the target before; every other membership and every other field is unchanged. */
  lemma FollowFlipsOneEdge(users: Users, caller: Id, targetId: Id)
    requires FindUser(users, caller) != -1 && UniqueIds(users)
    requires Follow(users, caller, targetId).Ok?
    ensures var users' := Follow(users, caller, targetId).value.0;
      && |users'| == |users|
      && (forall i :: 0 <= i < |users| ==> users'[i].(followers := users[i].followers, following := users[i].following) == users[i])
      && (forall i, j :: 0 <= i < |users| && 0 <= j < |users| ==>
            (users'[j].id in users'[i].following <==>
              EdgeAfter(users, caller, targetId, users[i].id, users[j].id, users[j].id in users[i].following)))
      && (forall i, j :: 0 <= i < |users| && 0 <= j < |users| ==>
            (users'[i].id in users'[j].followers <==>
              EdgeAfter(users, caller, targetId, users[i].id, users[j].id, users[i].id in users[j].followers)))
  {
    var users' := Follow(users, caller, targetId).value.0;
    forall i, j | 0 <= i < |users| && 0 <= j < |users|
      ensures users'[j].id in users'[i].following <==>
              EdgeAfter(users, caller, targetId, users[i].id, users[j].id, users[j].id in users[i].following)
      ensures users'[i].id in users'[j].followers <==>
              EdgeAfter(users, caller, targetId, users[i].id, users[j].id, users[i].id in users[j].followers)
    {
      FollowPair(users, caller, targetId, i, j);
    }
  }

  lemma FollowPair(users: Users, caller: Id, targetId: Id, i: nat, j: nat)
    requires FindUser(users, caller) != -1 && UniqueIds(users)
    requires Follow(users, caller, targetId).Ok?
    requires i < |users| && j < |users|
    ensures var users' := Follow(users, caller, targetId).value.0;
      && (users'[j].id in users'[i].following <==>
            EdgeAfter(users, caller, targetId, users[i].id, users[j].id, users[j].id in users[i].following))
      && (users'[i].id in users'[j].followers <==>
            EdgeAfter(users, caller, targetId, users[i].id, users[j].id, users[i].id in users[j].followers))
  {
    var a := FindUser(users, caller);
    var t := FindUser(users, targetId);
    var following := targetId in users[a].following;
    var users' := Follow(users, caller, targetId).value.0;
    assert users[i].id == caller <==> i == a;
    assert users[j].id == targetId <==> j == t;
    assert users'[i].id == users[i].id && users'[j].id == users[j].id;
    if i == a {
      EditMembership(users[a].following, targetId, following, users[j].id);
    }
    if j == t {
      EditMembership(users[t].followers, caller, following, users[i].id);
    }
  }

  /** One follow call keeps a symmetric graph symmetric. */
  lemma FollowKeepsSymmetry(users: Users, caller: Id, targetId: Id)
    requires FindUser(users, caller) != -1 && UniqueIds(users) && Symmetric(users)
    requires Follow(users, caller, targetId).Ok?
    ensures Symmetric(Follow(users, caller, targetId).value.0)
  {
    FollowFlipsOneEdge(users, caller, targetId);
  }

  /** On a symmetric graph, two follow calls by the same caller on the same target answer opposite
      `isFollowing` values and restore every membership. */
  lemma FollowTwiceRestores(users: Users, caller: Id, targetId: Id)
    requires FindUser(users, caller) != -1 && UniqueIds(users) && Symmetric(users)
    requires Follow(users, caller, targetId).Ok?
    ensures var once := Follow(users, caller, targetId).value.0;
      && FindUser(once, caller) != -1
      && Follow(once, caller, targetId).Ok?
      && Follow(once, caller, targetId).value.1 == !Follow(users, caller, targetId).value.1
      && var twice := Follow(once, caller, targetId).value.0;
      && |twice| == |users|
      && forall i, j :: 0 <= i < |users| && 0 <= j < |users| ==>
           && (users[j].id in twice[i].following <==> users[j].id in users[i].following)
           && (users[i].id in twice[j].followers <==> users[i].id in users[j].followers)
  {
    var once := Follow(users, caller, targetId).value.0;
    FollowKeepsIds(users, caller, targetId);
    var a := FindUser(users, caller);
    var t := FindUser(users, targetId);
    FollowPair(users, caller, targetId, a, t);
    var twice := Follow(once, caller, targetId).value.0;
    forall i, j | 0 <= i < |users| && 0 <= j < |users|
      ensures users[j].id in twice[i].following <==> users[j].id in users[i].following
      ensures users[i].id in twice[j].followers <==> users[i].id in users[j].followers
    {
      TwicePair(users, caller, targetId, i, j);
    }
  }

  /** A follow call keeps every record's id in place, so lookups by id answer as before. */
  lemma FollowKeepsIds(users: Users, caller: Id, targetId: Id)
    requires FindUser(users, caller) != -1 && UniqueIds(users)
    requires Follow(users, caller, targetId).Ok?
    ensures var once := Follow(users, caller, targetId).value.0;
      && |once| == |users|
      && (forall i :: 0 <= i < |users| ==> once[i].id == users[i].id)
      && UniqueIds(once)
      && FindUser(once, caller) == FindUser(users, caller)
      && FindUser(once, targetId) == FindUser(users, targetId)
      && Follow(once, caller, targetId).Ok?
  {
    var once := Follow(users, caller, targetId).value.0;
    assert forall i :: 0 <= i < |users| ==> once[i].id == users[i].id;
    SameIdsSameFind(users, once, caller);
    SameIdsSameFind(users, once, targetId);
  }

  /** Two follow calls restore one pair's edge on both records. */
  lemma TwicePair(users: Users, caller: Id, targetId: Id, i: nat, j: nat)
    requires FindUser(users, caller) != -1 && UniqueIds(users) && Symmetric(users)
    requires Follow(users, caller, targetId).Ok?
    requires i < |users| && j < |users|
    ensures var once := Follow(users, caller, targetId).value.0;
      && FindUser(once, caller) != -1
      && Follow(once, caller, targetId).Ok?
      && var twice := Follow(once, caller, targetId).value.0;
      && (users[j].id in twice[i].following <==> users[j].id in users[i].following)
      && (users[i].id in twice[j].followers <==> users[i].id in users[j].followers)
  {
    var once := Follow(users, caller, targetId).value.0;
    FollowKeepsIds(users, caller, targetId);
    var a := FindUser(users, caller);
    var t := FindUser(users, targetId);
    FollowPair(users, caller, targetId, i, j);
    FollowPair(users, caller, targetId, a, t);
    FollowPair(once, caller, targetId, i, j);
  }

  /** Lookup by id only depends on the ids. */
  lemma SameIdsSameFind(us: Users, vs: Users, id: Id)
    requires |us| == |vs| && forall i :: 0 <= i < |us| ==> us[i].id == vs[i].id
    ensures FindUser(us, id) == FindUser(vs, id)
  {
    var a := FindUser(us, id);
    var b := FindUser(vs, id);
    if a != -1 && b != -1 {
      assert !(a < b) && !(b < a);
    }
  }
}

=== FILE: validations.dfy ===
/** The client-side schemas of frontend/src/lib/validations.ts. Each field schema yields its first
    failing check's message, or None when the value passes. Email format is a parameter. */
module Validations {
  import opened Base

  const UsernameMin := 3
  const UsernameMax := 20
  const PasswordMin := 6
  const DisplayNameMin := 2
  const DisplayNameMax := 50

  const UsernameTooShort := "اسم المستخدم يجب أن يكون 3 أحرف على الأقل"
  const UsernameTooLong := "اسم المستخدم يجب أن يكون أقل من 20 حرف"
  const UsernameBadChars := "اسم المستخدم يجب أن يبدأ بحرف إنجليزي ويحتوي فقط على أحرف إنجليزية وأرقام و _"
  const EmailInvalid := "البريد الإلكتروني غير صالح"
  const PasswordTooShort := "كلمة المرور يجب أن تكون 6 أحرف على الأقل"
  const DisplayNameTooShort := "الاسم يجب أن يكون حرفين على الأقل"
  const DisplayNameTooLong := "الاسم يجب أن يكون أقل من 50 حرف"
  const IdentifierRequired := "أدخل البريد أو اسم المستخدم"

  /** The character class `[a-zA-Z]`. */
  predicate IsAsciiLetter(c: char) {
    'a' <= c <= 'z' || 'A' <= c <= 'Z'
  }

  /** The character class `[a-zA-Z0-9_]`. */
  predicate IsWordChar(c: char) {
    IsAsciiLetter(c) || '0' <= c <= '9' || c == '_'
  }

  /** The pattern `^[a-zA-Z][a-zA-Z0-9_]*$`. */
  predicate UsernamePattern(s: string) {
    |s| > 0 && IsAsciiLetter(s[0]) && forall i :: 1 <= i < |s| ==> IsWordChar(s[i])
  }

  /** Whether a username satisfies every check of the schema. */
  predicate UsernameOk(s: string) {
    UsernameMin <= |s| <= UsernameMax && UsernamePattern(s)
  }

  /** `usernameSchema`: the checks `min(3)`, `max(20)`, `regex` in this order; the first failing one
      gives the message. */
  function UsernameError(s: string): (e: Option<string>)
    ensures e.None? <==> UsernameOk(s)
    ensures |s| < UsernameMin ==> e == Some(UsernameTooShort)
    ensures |s| > UsernameMax ==> e == Some(UsernameTooLong)
    ensures UsernameMin <= |s| <= UsernameMax && !UsernamePattern(s) ==> e == Some(UsernameBadChars)
  {
    if |s| < UsernameMin then Some(UsernameTooShort)
    else if |s| > UsernameMax then Some(UsernameTooLong)
    else if !UsernamePattern(s) then Some(UsernameBadChars)
    else None
  }

  /** `passwordSchema`: at least six characters. */
  function PasswordError(s: string): (e: Option<string>)
    ensures e.None? <==> |s| >= PasswordMin
    ensures e.Some? ==> e.value == PasswordTooShort
  {
    if |s| < PasswordMin then Some(PasswordTooShort) else None
  }

  /** `displayNameSchema`: `min(2)` then `max(50)`. */
  function DisplayNameError(s: string): (e: Option<string>)
    ensures e.None? <==> DisplayNameMin <= |s| <= DisplayNameMax
    ensures |s| < DisplayNameMin ==> e == Some(DisplayNameTooShort)
    ensures |s| > DisplayNameMax ==> e == Some(DisplayNameTooLong)
  {
    if |s| < DisplayNameMin then Some(DisplayNameTooShort)
    else if |s| > DisplayNameMax then Some(DisplayNameTooLong)
    else None
  }

  /** `emailSchema`; `isEmail` stands for the library's email-format check. */
  function EmailError(s: string, isEmail: string -> bool): (e: Option<string>)
    ensures e.None? <==> isEmail(s)
    ensures e.Some? ==> e.value == EmailInvalid
  {
    if isEmail(s) then None else Some(EmailInvalid)
  }

  /** One failed path of an object schema: the field name and its message. */
  datatype Issue = Issue(path: string, message: string)

  /** The issues of a field, as a list of zero or one. */
  function IssueOf(path: string, e: Option<string>): (r: seq<Issue>)
    ensures |r| <= 1
    ensures r == [] <==> e.None?
    ensures r != [] ==> r[0] == Issue(path, e.value)
  {
    if e.Some? then [Issue(path, e.value)] else []
  }

  /** `signupSchema`: every field is checked, and the issues come in field order. */
  function SignupIssues(email: string, username: string, displayName: string, password: string,
                        isEmail: string -> bool): (r: seq<Issue>)
    ensures r == [] <==> (isEmail(email) && UsernameOk(username)
                          && DisplayNameMin <= |displayName| <= DisplayNameMax && |password| >= PasswordMin)
    ensures |r| <= 4
    ensures forall i :: 0 <= i < |r| ==> r[i].path in {"email", "username", "displayName", "password"}
  {
    IssueOf("email", EmailError(email, isEmail))
    + IssueOf("username", UsernameError(username))
    + IssueOf("displayName", DisplayNameError(displayName))
    + IssueOf("password", PasswordError(password))
  }

  /** `loginSchema`: a non-empty identifier and a valid password. */
  function LoginIssues(identifier: string, password: string): (r: seq<Issue>)
    ensures r == [] <==> (|identifier| >= 1 && |password| >= PasswordMin)
    ensures |identifier| == 0 ==> r[0] == Issue("emailOrUsername", IdentifierRequired)
    ensures |identifier| >= 1 && |password| < PasswordMin ==> r == [Issue("password", PasswordTooShort)]
  {
    IssueOf("emailOrUsername", if |identifier| >= 1 then None else Some(IdentifierRequired))
    + IssueOf("password", PasswordError(password))
  }
}
